=== FILE: README.md ===
# GTP control-plane codec in Dafny

A model of two pieces of the go-gtp codec, written as pure functions over
octet sequences, with their properties proved.

**GTPv1 Generic message (`v1/messages/generic.go`).** This is the fallback
for message types that have no dedicated implementation. It holds a header
and an ordered list of IEs, and any entry of that list may be nil. The model
covers:

- length bookkeeping: the serial length, and a length field equal to the
  serial length minus the mandatory eight octets (section 6 of 3GPP TS 29.060);
- serialisation into a caller-supplied buffer, writing the non-nil IEs back to
  back after the header;
- appending IEs, which also recomputes the length;
- decoding, with its "payload shorter than two octets carries no IEs" guard.

The v1 header codec, the IE type and the multi-IE parser are not part of this
model. They enter as an abstract `Codec` record with four parts: an IE's
declared size, its serialisation, the header parser and the multi-IE parser.
`Marshal` needs only `Sound` of that record: a successful IE serialisation is
exactly as long as the IE's declared size. The round trip `ParseMarshal` also
assumes that the two parsers read back what was written.

**GTPv2-C wire encoding (`gtpv2/message/create-session-req_test.go`).** A
Create Session Request test vector pins this encoding down octet by octet. The
model covers:

- the message header (clause 5 of 3GPP TS 29.274);
- the type / length / instance layout of every IE (clause 8.2.1), including
  grouped IEs;
- swapped-nibble BCD digit strings;
- PLMN packing of MCC and MNC;
- APN label encoding;
- fixed-width big-endian fields, such as the 40-bit rates of Bearer QoS;
- the Create Session Request constructor, which files each IE into a message
  field and serialises the fields in the message's own order.

The GTPv2 IE and message implementations are not modelled line by line; the
encoders here are written from clause 8 of 3GPP TS 29.274, and the proofs show
that they reproduce the vector: one equality per IE and one for
the whole 241-octet message (`CreateSessionRequestVector.MarshalsToVector`).

Modules and files:

| file | module | contents |
|---|---|---|
| `wrappers.dfy` | `Wrappers` | `Option`, `Result`, error kinds |
| `bytes.dfy` | `Bytes` | octets, w-octet big-endian integers |
| `bcd.dfy` | `Bcd` | swapped-nibble digits, PLMN identity |
| `apn.dfy` | `Apn` | dotted names and length-prefixed labels |
| `gtpv2_ie.dfy` | `V2IE` | IE layout, grouped IEs, IE parser |
| `gtpv2_ies.dfy` | `V2IETypes` | the IE constructors the request uses |
| `gtpv2_message.dfy` | `V2Message` | GTPv2-C header and message codec |
| `gtpv2_csr.dfy` | `CreateSessionRequest` | filing IEs into fields, field order |
| `csr_vector.dfy` | `CreateSessionRequestVector` | the test vector |
| `gtpv1_generic.dfy` | `V1Generic` | the GTPv1 Generic message |

## Model

| member | source | states |
|---|---|---|
| V1Generic.PrefixLen | v1/messages/generic.go:91-92 | The header prefix is either the eight mandatory octets or those plus the four optional ones, never anything else. |
| V1Generic.HeaderOctets | v1/messages/generic.go:59-60 | The written header is as long as the prefix. It carries the flags, the type, the 16-bit length and the 32-bit TEID at their fixed positions, and, when the optional fields are present, the 16-bit sequence number, the N-PDU number and the next extension type in octets 8 to 11. |
| V1Generic.SetLength | v1/messages/generic.go:104-107 | Only the length field changes, and the serial length is kept. The length equals the serial length minus 8, cut to 16 bits, and it is exact whenever that value fits. |
| V1Generic.NewGeneric | v1/messages/generic.go:20-29 | The IEs are kept as given, in order, with flags 0x32 and the given type, TEID and sequence number, which reaches the wire in header octets 8 and 9. The serial length is 12 plus the IE sizes, and the length field agrees with it. |
| V1Generic.MarshalLen | v1/messages/generic.go:90-102 | The serial length is at least the eight mandatory octets: the header prefix plus the sizes of the non-nil IEs, nil entries counting nothing. |
| V1Generic.TEID | v1/messages/generic.go:114-117 | The TEID reported is the one written big-endian into header octets 4 to 7, and reading those octets back gives it. |
| V1Generic.AddIE | v1/messages/generic.go:119-123 | The new IEs follow the old ones, which stay unchanged and in order. The header changes only in its length, the serial length grows by the added sizes, and the length field agrees again. |
| V1Generic.AddIEAssociative | v1/messages/generic.go:119-123 | Adding IEs in two calls gives the same message as adding them all in one call. |
| V1Generic.SumLenAppend | v1/messages/generic.go:91-102 | The summed IE size of two concatenated lists is the sum of the lists' sizes. |
| V1Generic.EncodeBodyCompact | v1/messages/generic.go:94-97 | Nil entries contribute nothing: the body and the summed size are those of the list with the nils removed. |
| V1Generic.TEIDKept | v1/messages/generic.go:114-117 | The TEID reported is the one given to the constructor, and adding IEs does not change it. |
| V1Generic.MarshalTo | v1/messages/generic.go:41-61 | The first IE error is returned and nothing is written. Otherwise it fails exactly when the buffer is shorter than the message. On success, the header octets with the length recomputed from the body (prefix plus body minus 8, cut to 16 bits) fill the prefix, the body sits right after it, and the buffer keeps its length and every octet past the message. |
| V1Generic.MarshalBody | v1/messages/generic.go:46-57 | The offset-advancing loop produces exactly the in-order concatenation of the non-nil IE encodings, or the first IE error. A successful body is as long as the summed IE sizes. |
| V1Generic.EncodeBodyLength | v1/messages/generic.go:46-57 | With a sound IE codec, a successful body is exactly as long as the summed sizes of the non-nil IEs. |
| V1Generic.EncodeBodyPrefixFails | v1/messages/generic.go:53-55 | Once an IE in a prefix of the list fails, the whole body fails with that same error, whatever follows it. |
| V1Generic.EntryAtOffset | v1/messages/generic.go:48-57 | Each non-nil IE's encoding starts in the body at the summed sizes of the IEs before it and ends at that offset plus its own size. |
| V1Generic.Zeros | v1/messages/generic.go:33 | The freshly made buffer has the requested length and holds only zero octets. |
| V1Generic.Marshal | v1/messages/generic.go:31-39 | Succeeds exactly when every IE serialises, and otherwise returns the first IE's error with no partial result. On success the result is exactly the serial length: the header with its recomputed length, then the body. |
| V1Generic.UnmarshalBinary | v1/messages/generic.go:72-88 | The method as written, acting on an existing message: a header parse error is returned unchanged, and a payload under 2 octets keeps the IEs the message already held. Otherwise it succeeds exactly when the multi-IE parser does, returning that parser's error on failure, and a success holds exactly the parsed IEs in order. The header is always the parsed one. |
| V1Generic.UnmarshalBinaryIntended | v1/messages/generic.go:72-88 | The corrected decoder: the header errors are the same, but a payload under 2 octets gives no IEs and no error. Otherwise it succeeds exactly when the multi-IE parser does, returning that parser's error on failure, and a success holds exactly the parsed IEs in order. The header is always the parsed one. |
| V1Generic.ParseGeneric | v1/messages/generic.go:63-70 | Decoding into a fresh message agrees with the corrected decoder. A header parse error is returned unchanged, and a success carries the parsed header and, for a payload of 2 octets or more, exactly the parsed IEs in order. |
| V1Generic.StaleIEsKept | v1/messages/generic.go:79-81 | Decoding a short payload into a message that already holds IEs keeps those IEs, so the result differs from a fresh decode, which has none. |
| V1Generic.FreshDecodingAgrees | v1/messages/generic.go:63-70 | Into a fresh message, as ParseGeneric decodes, the code as written and the corrected decoder agree on every input. |
| V1Generic.ParseMarshal | v1/messages/generic.go:63-70 | Given a header and IE parser that read back what they wrote, parsing a marshalled message gives back its header (length recomputed) and its non-nil IEs in order. |
| Bytes.FromUintBE | gtpv2/message/create-session-req_test.go:83 | Reading back a w-octet big-endian field gives the value modulo 256^w, so a value that fits is kept exactly. |
| Bytes.UintBEFrom | gtpv2/message/create-session-req_test.go:51 | Re-encoding a read big-endian field at its width reproduces its octets. |
| Bytes.FromUintBEFits | gtpv2/message/create-session-req_test.go:83 | A value below 256^w survives the w-octet round trip unchanged. |
| Bytes.FromBEInjective | gtpv2/message/create-session-req_test.go:51 | Two equally long fields that read as the same number are the same octets. |
| Bcd.SwappedDigits | gtpv2/message/create-session-req_test.go:22 | A digit string is encodable exactly when it is all decimal digits, and it then takes ceil(n/2) octets. |
| Bcd.EncodeDigitsOctets | gtpv2/message/create-session-req_test.go:53 | Octet i holds digit 2i in its low nibble and digit 2i+1, or the 0xF filler past the end, in its high nibble. |
| Bcd.EncodeDigitsNibbles | gtpv2/message/create-session-req_test.go:55 | The same placement, stated nibble by nibble. |
| Bcd.DecodeEncodeDigits | gtpv2/message/create-session-req_test.go:53 | Decoding the swapped-nibble form of any digit string gives the string back. |
| Bcd.EncodeDecodeDigits | gtpv2/message/create-session-req_test.go:57 | Every decodable octet string is the canonical encoding of its digits. |
| Bcd.EncodePLMN | gtpv2/message/create-session-req_test.go:63 | An MCC/MNC pair is encodable exactly when the MCC has 3 digits and the MNC 2 or 3; the encoding is 3 octets. |
| Bcd.DecodeEncodePLMN | gtpv2/message/create-session-req_test.go:63 | Every encodable MCC/MNC pair decodes back to itself. |
| Bcd.EncodeDecodePLMN | gtpv2/message/create-session-req_test.go:60 | Every decodable PLMN identity re-encodes to the same three octets. |
| Bcd.DigitChar | gtpv2/message/create-session-req_test.go:22 | A digit value maps to a decimal digit character that reads back as that value. |
| Apn.Split | gtpv2/message/create-session-req_test.go:24 | A name splits into at least one label, and no label contains a dot. |
| Apn.JoinSplit | gtpv2/message/create-session-req_test.go:24 | Joining the labels of a name with dots gives the name back. |
| Apn.SplitJoin | gtpv2/message/create-session-req_test.go:24 | Splitting a join of dot-free labels gives the labels back. |
| Apn.EncodeLabelsLength | gtpv2/message/create-session-req_test.go:73 | The encoded labels take the label lengths plus one length octet per label. |
| Apn.EncodeAPNLength | gtpv2/message/create-session-req_test.go:73 | An APN value is exactly one octet longer than the dotted name (16 octets give length 0x11). |
| Apn.DecodeEncodeLabels | gtpv2/message/create-session-req_test.go:73 | Label lists whose lengths fit an octet survive the encode/decode round trip. |
| Apn.DecodeEncodeAPN | gtpv2/message/create-session-req_test.go:24 | A name whose labels fit an octet survives the APN round trip. |
| Apn.DecodeLabels | gtpv2/message/create-session-req_test.go:73 | A successful decode yields no label exactly when the value is empty. |
| Apn.EncodeDecodeLabels | gtpv2/message/create-session-req_test.go:73 | Every well-formed label value is exactly the encoding of the labels decoded from it. |
| Apn.EncodeDecodeAPN | gtpv2/message/create-session-req_test.go:73 | A non-empty, well-formed APN value whose labels hold no dot re-encodes to itself from the decoded name. |
| V2IE.EncodeLayout | gtpv2/message/create-session-req_test.go:53 | An encoded IE reads back field by field: the type octet, a length field holding the value's length modulo 2^16, the spare and instance nibbles of the fourth octet, then the value. |
| V2IE.EncodeSize | gtpv2/message/create-session-req_test.go:53 | An encoded IE is four header octets plus its value, grouped values counting their children's full sizes. |
| V2IE.LengthFieldIsValueSize | gtpv2/message/create-session-req_test.go:53 | The length field of a well-formed IE counts exactly its value, i.e. its size minus 4. |
| V2IE.GroupedLength | gtpv2/message/create-session-req_test.go:85-91 | A grouped IE's length field is the sum over its children of 4 plus each child's own length field. |
| V2IE.EncodeAllAppend | gtpv2/message/create-session-req_test.go:53-99 | Encoding a concatenated list of IEs is the concatenation of the encodings. |
| V2IE.SizeAllAppend | gtpv2/message/create-session-req_test.go:53-99 | The summed sizes of a concatenated list of IEs is the sum of the parts' sizes. |
| V2IE.EncodeAllOffsets | gtpv2/message/create-session-req_test.go:53-99 | IE i of an encoded list lies between the summed sizes of the IEs before it and that sum plus its own size. |
| V2IE.ParseIE | gtpv2/message/create-session-req_test.go:105 | A successful parse of one IE consumes at least one octet, keeps the type octet it read, and leaves a suffix of the input as the rest. |
| V2IE.ParseEncode | gtpv2/message/create-session-req_test.go:105 | Parsing a well-formed IE's encoding followed by anything returns the IE and leaves the rest. |
| V2IE.ParseEncodeAll | gtpv2/message/create-session-req_test.go:105 | Parsing an encoded list of well-formed IEs gives the list back in order. |
| V2IE.EncodeParse | gtpv2/message/create-session-req_test.go:105 | Whatever parses as an IE is well-formed, and re-encoding it reproduces the consumed octets. |
| V2IE.EncodeParseAll | gtpv2/message/create-session-req_test.go:105 | Whatever parses as an IE list is well-formed, and re-encoding it reproduces the octets. |
| V2IETypes.NewIMSI | gtpv2/message/create-session-req_test.go:22 | An IMSI IE exists exactly when the argument is all decimal digits. |
| V2IETypes.NewMSISDN | gtpv2/message/create-session-req_test.go:23 | An MSISDN IE exists exactly when the argument is all decimal digits. |
| V2IETypes.NewMobileEquipmentIdentity | gtpv2/message/create-session-req_test.go:38 | An MEI IE exists exactly when the argument is all decimal digits. |
| V2IETypes.IdentityDigits | gtpv2/message/create-session-req_test.go:53-57 | IMSI, MSISDN and MEI IEs built from a digit string carry those digits back, each in ceil(n/2) value octets. |
| V2IETypes.AccessPointNameValue | gtpv2/message/create-session-req_test.go:73 | An APN IE's value is one octet longer than the name, and decodes back to the name when every label fits. |
| V2IETypes.FullyQualifiedTEIDFields | gtpv2/message/create-session-req_test.go:69 | An IPv4 F-TEID value is 9 octets: the IPv4 bit set, the IPv6 bit clear, the interface type in the low six bits, the TEID, then the address. |
| V2IETypes.WithInstance | gtpv2/message/create-session-req_test.go:71 | Only the instance nibble of the fourth octet changes. The spare nibble and every other octet of the encoding are kept. |
| V2IETypes.AggregateMaximumBitRateFields | gtpv2/message/create-session-req_test.go:83 | The AMBR value is 8 octets: the uplink rate, then the downlink rate, each in 4 octets. |
| V2IETypes.ArpOctet | gtpv2/message/create-session-req_test.go:89 | The ARP octet carries PCI in bit 7, PL in bits 6 to 3 and PVI in bit 1, with the top bit clear. |
| V2IETypes.BearerQoSFields | gtpv2/message/create-session-req_test.go:89-91 | The Bearer QoS value is 22 octets: the ARP fields, the QCI, then four rates of exactly 5 octets each, holding the argument modulo 2^40. |
| V2IETypes.NewServingNetwork | gtpv2/message/create-session-req_test.go:39 | A Serving Network IE exists exactly when the MCC/MNC pair is encodable. |
| V2IETypes.EncodeTAI | gtpv2/message/create-session-req_test.go:60 | A TAI exists exactly when its MCC/MNC pair is encodable. It is 5 octets: the packed PLMN, then the tracking area code, which reads back big-endian. |
| V2IETypes.EncodeECGI | gtpv2/message/create-session-req_test.go:61 | An ECGI exists exactly when its MCC/MNC pair is encodable. It is 7 octets: the packed PLMN, then the cell identity, which reads back big-endian. |
| V2IETypes.NewUserLocationInformation | gtpv2/message/create-session-req_test.go:42-45 | A ULI IE exists exactly when every identity given is encodable. It has type 0x56 and instance 0, and its value is a flags octet holding the TAI (0x08) and ECGI (0x10) bits of the identities present, then the encoded TAI in octets 1 to 5 and the encoded ECGI in the last 7 octets, when present. |
| V2IETypes.ULISharesPLMN | gtpv2/message/create-session-req_test.go:59-63 | The ULI flags read TAI+ECGI (0x18), and both identities repeat the PLMN octets of the Serving Network IE. |
| V2Message.HeaderFlags | gtpv2/message/create-session-req_test.go:51 | The first octet holds the version in the top three bits, then the piggybacking and TEID flags, with the spare bits clear. |
| V2Message.HeaderOctets | gtpv2/message/create-session-req_test.go:51 | The header is 12 octets with a TEID and 8 without. |
| V2Message.SetLength | gtpv2/message/create-session-req_test.go:51 | Only the length changes, and it counts every octet after the first four whenever that fits 16 bits. |
| V2Message.ParseHeader | gtpv2/message/create-session-req_test.go:105 | A parsed header's length field fits the input, and the body is exactly the octets from the end of the prefix to four plus that length. |
| V2Message.Marshal | gtpv2/message/create-session-req_test.go:49-100 | The wire form is the header prefix plus the IEs' sizes long, and after the prefix it holds the IEs encoded in list order. |
| V2Message.Parse | gtpv2/message/create-session-req_test.go:104-108 | Parsing succeeds exactly when the header and then the IE list parse. The result carries the parsed header and well-formed IEs whose encoding is exactly the body. |
| V2Message.MarshalLengthField | gtpv2/message/create-session-req_test.go:51 | The length field of a serialised message is its size minus 4 (241 octets give 0xed). |
| V2Message.ParseHeaderOctets | gtpv2/message/create-session-req_test.go:105 | A canonical header whose length counts the body reads back, with that body. |
| V2Message.ParseMarshal | gtpv2/message/create-session-req_test.go:104-108 | Parsing a serialised encodable message gives back its IEs in order and its header with the length made consistent. |
| V2Message.HeaderOctetsParsed | gtpv2/message/create-session-req_test.go:51 | A parsed header re-serialises to exactly the prefix octets it was read from. |
| V2Message.MarshalParse | gtpv2/message/create-session-req_test.go:104-108 | A parsed message spanning its whole input re-serialises to exactly that input. |
| V2Message.TruncatedMessageFails | gtpv2/message/create-session-req_test.go:104-108 | A serialised message cut short anywhere fails to parse instead of giving a partial message. |
| CreateSessionRequest.SetRequestLengthConsistent | gtpv2/message/create-session-req_test.go:51 | After the length is recomputed, it counts every serialised octet after the first four, and nothing else changes. |
| CreateSessionRequest.NewCreateSessionRequest | gtpv2/message/create-session-req_test.go:20-21 | The constructor's header has flags 0x48, type 0x20 and the given TEID and sequence. Its length is 8 plus the size of the IEs it serialises, whenever that fits 16 bits. |
| CreateSessionRequest.NewCreateSessionRequestHeader | gtpv2/message/create-session-req_test.go:20-21 | The constructor's header has version 2, the TEID flag, type 0x20 and the given TEID and sequence. Its length counts every serialised octet after the first four. |
| CreateSessionRequest.EmptyRequestHeader | gtpv2/message/create-session-req_test.go:51 | The header the constructor starts from has flags 0x48 and a 12-octet prefix. |
| CreateSessionRequest.MarshalCreateSessionRequestSize | gtpv2/message/create-session-req_test.go:49-100 | The wire size is the header prefix plus the encoded IEs. |
| CreateSessionRequest.BuildHeader | gtpv2/message/create-session-req_test.go:20-48 | Filing IEs leaves the header alone. |
| CreateSessionRequest.PresentAll | gtpv2/message/create-session-req_test.go:53-83 | When every field is set, the message writes one IE per field, in field order. |
| CreateSessionRequest.SlotOrderDistinct | gtpv2/message/create-session-req_test.go:53-83 | The serialisation order names every single-IE field exactly once. |
| CreateSessionRequest.PlaceMultiset | gtpv2/message/create-session-req_test.go:20-48 | Filing an IE adds it and drops at most the IE its field held. It drops nothing when that field was empty. |
| CreateSessionRequest.BuildSubMultiset | gtpv2/message/create-session-req_test.go:20-48 | Filing never invents an IE: everything serialised is an argument, counted with multiplicity. |
| CreateSessionRequest.BuildPermutation | gtpv2/message/create-session-req_test.go:20-48 | When no field is given twice, the serialised IEs are a permutation of the non-nil arguments. |
| CreateSessionRequest.NewCreateSessionRequestIEs | gtpv2/message/create-session-req_test.go:20-48 | The constructor serialises only arguments, and exactly the non-nil arguments when no field is given twice. |
| CreateSessionRequestVector.ImsiOctets | gtpv2/message/create-session-req_test.go:53 | "123451234567890" encodes as 21 43 15 32 54 76 98 f0. |
| CreateSessionRequestVector.MsisdnOctets | gtpv2/message/create-session-req_test.go:55 | "123450123456789" encodes as 21 43 05 21 43 65 87 f9. |
| CreateSessionRequestVector.VectorPLMN | gtpv2/message/create-session-req_test.go:63 | MCC "123" with MNC "45" packs to 21 f3 54. |
| CreateSessionRequestVector.ImsiArgEncoding | gtpv2/message/create-session-req_test.go:53 | The IMSI argument encodes to its 12 vector octets, with type 0x01 and length 8. |
| CreateSessionRequestVector.MsisdnArgEncoding | gtpv2/message/create-session-req_test.go:55 | The MSISDN argument encodes to its 12 vector octets, with type 0x4c. |
| CreateSessionRequestVector.MEIArgEncoding | gtpv2/message/create-session-req_test.go:57 | The MEI argument encodes to its 12 vector octets, with type 0x4b and the MSISDN's digit octets. |
| CreateSessionRequestVector.ApnArgEncoding | gtpv2/message/create-session-req_test.go:73 | "some.apn.example" encodes as 04 'some' 03 'apn' 07 'example' with length 0x11. |
| CreateSessionRequestVector.ULIArgEncoding | gtpv2/message/create-session-req_test.go:59-61 | The ULI argument encodes to flags 0x18, the TAI and the ECGI, with length 0x0d. |
| CreateSessionRequestVector.ServingNetworkArgEncoding | gtpv2/message/create-session-req_test.go:63 | The Serving Network argument encodes to type 0x53 and the packed PLMN. |
| CreateSessionRequestVector.RATTypeArgEncoding | gtpv2/message/create-session-req_test.go:65 | The RAT type argument encodes to 52 00 01 00 06. |
| CreateSessionRequestVector.IndicationArgEncoding | gtpv2/message/create-session-req_test.go:67 | The Indication octets are carried verbatim under type 0x4d with length 7. |
| CreateSessionRequestVector.FteidOctets | gtpv2/message/create-session-req_test.go:69 | A default-instance IPv4 F-TEID with an all-ones TEID encodes to 57 00 09 00, the flags octet, ff ff ff ff, then the address. |
| CreateSessionRequestVector.FteidInstanceOctets | gtpv2/message/create-session-req_test.go:71 | The same F-TEID under instance k carries k in the fourth octet and is otherwise identical. |
| CreateSessionRequestVector.SenderFTEIDArgEncoding | gtpv2/message/create-session-req_test.go:69 | The S11 MME F-TEID has instance 0 and encodes to its 13 vector octets, with flags 0x8a. |
| CreateSessionRequestVector.PGWFTEIDArgEncoding | gtpv2/message/create-session-req_test.go:71 | The S5/S8 PGW F-TEID built with instance 1 carries 0x01 in its fourth octet and flags 0x87. |
| CreateSessionRequestVector.SelectionModeArgEncoding | gtpv2/message/create-session-req_test.go:75 | The selection mode argument encodes to 80 00 01 00 00. |
| CreateSessionRequestVector.PDNTypeArgEncoding | gtpv2/message/create-session-req_test.go:77 | The PDN type argument encodes to 63 00 01 00 01. |
| CreateSessionRequestVector.PAAArgEncoding | gtpv2/message/create-session-req_test.go:79 | The PAA argument encodes to type 0x4f, length 5, PDN type IPv4 and 2.2.2.2. |
| CreateSessionRequestVector.APNRestrictionArgEncoding | gtpv2/message/create-session-req_test.go:81 | The APN restriction argument encodes to 7f 00 01 00 01. |
| CreateSessionRequestVector.AMBRArgEncoding | gtpv2/message/create-session-req_test.go:83 | The AMBR rates take four octets each, under type 0x48 with length 8. |
| CreateSessionRequestVector.BearerQoSEncoding | gtpv2/message/create-session-req_test.go:89-91 | The Bearer QoS encodes with length 0x16, ARP octet 0x49, QCI 0xff and four 5-octet rates. |
| CreateSessionRequestVector.RateOctets | gtpv2/message/create-session-req_test.go:90 | 0x1111111111 and 0x2222222222 occupy exactly five octets each. |
| CreateSessionRequestVector.BearerContextEncoding | gtpv2/message/create-session-req_test.go:85-91 | A Bearer Context of an EBI and that Bearer QoS has length 0x1f, with the children in construction order. |
| CreateSessionRequestVector.FileInFieldOrder | gtpv2/message/create-session-req_test.go:20-48 | The vector's arguments are serialised in field order, not argument order: identities, location, tunnels, APN, PDN fields, AMBR, then both Bearer Contexts. |
| CreateSessionRequestVector.MarshalInFieldOrder | gtpv2/message/create-session-req_test.go:20-48 | The constructed request serialises as its header with the recomputed length, followed by the IEs in field order. |
| CreateSessionRequestVector.HeaderOctetsVector | gtpv2/message/create-session-req_test.go:51 | With a 229-octet body, TEID 0x11223344 and sequence 1, the header is 48 20 00 ed 11 22 33 44 00 00 01 00. |
| CreateSessionRequestVector.BodyVectorLength | gtpv2/message/create-session-req_test.go:53-99 | The IE octets of the vector total 229. |
| CreateSessionRequestVector.MarshalFromShaped | gtpv2/message/create-session-req_test.go:49-100 | Any arguments shaped like the vector's IEs serialise to the vector's octets. |
| CreateSessionRequestVector.MarshalsToVector | gtpv2/message/create-session-req_test.go:20-100 | The request built from the test's arguments serialises to exactly the 241 octets of the vector. |

## Left out

- The v1 `Header` type, its `MarshalTo`, `ParseHeader`, the `ies.IE` type and
  `ies.ParseMultiIEs` are not part of this model. They are parameters: IE
  sizes and serialisation, and a header and IE parser. The v1 header octets are
  written after section 6 of 3GPP TS 29.060, without extension headers.
- V1Generic.MarshalTo: the header's own `MarshalTo` is not part of this model.
  Its behaviour on a short buffer is modelled as a `TooShortToMarshal` error,
  and the header octets follow section 6 of 3GPP TS 29.060.
- V1Generic.MarshalTo: the Go method also stores the recomputed length in the
  receiver's header (`g.Header.SetLength()`), so later reads of
  `g.Header.Length` see `SetLength(c, g).header.length`. The model returns the
  octets only and leaves the message value unchanged.
- V1Generic.Marshal: the length and layout guarantees hold under `Sound`, the
  assumption that an IE serialises to its declared size. The IE code that would
  establish it is not part of this model.
- V1Generic.ParseMarshal: the round trip assumes a header parser and an IE
  parser that read back what they wrote. Those parsers are not part of this
  model.
- V1Generic.UnmarshalBinary: when the IE parser fails, the Go method has
  already overwritten the message's header. The model returns the error only,
  because messages are immutable values here.
- `MessageTypeName` is string formatting only.
- The cached `Header.Payload` buffer, and its reset and aliasing in
  `MarshalTo`, are left out. Messages are immutable values, and the payload is
  the body the function returns.
- `NewHeader`'s initial length is not modelled separately, since `SetLength`
  overwrites it at once.
- The test harness `testutils.Run` and its clearing of the parsed message's
  raw payload are left out. The parse direction it exercises is modelled by
  `V2Message.ParseMarshal` and `V2Message.MarshalParse`.
- Textual IPv4 addresses ("1.1.1.1") are not parsed, because that is a library
  call. Addresses are four raw octets.
- IPv6 F-TEID addresses and the ULI location kinds the vector does not use
  (CGI, SAI, RAI, LAI, macro eNodeB, extended macro eNodeB) are left out.
- The rest of the GTPv2 message and IE catalogue is left out.
- The GTPv2 parser models only the Bearer Context type as grouped. Other
  grouped IE types are outside the vector.
- Bcd.SwappedDigits: the Go digit helper hex-decodes its swapped string, so it
  would also accept the letters a to f. The model follows 3GPP TS 29.274,
  whose identities are decimal digit strings, and rejects any other character.
- Bcd.EncodePLMN: the length check on the MCC (3 digits) and MNC (2 or 3
  digits) follows the PLMN layout of clause 8.18 of 3GPP TS 29.274. The Go
  helper that packs the PLMN is not part of this model, and the check is not
  taken from it.
- Apn.DecodeAPN: decoding does not round-trip for every value. The empty value
  decodes to the empty name, which encodes as a single zero octet, and a label
  holding a dot (0x2e) splits in two on re-encoding. Apn.EncodeDecodeAPN states
  the round trip for the values outside those two cases.
- V2IE.Encode: the field-by-field contract is stated by V2IE.EncodeLayout rather
  than on the function itself. The serialisation proofs of the test vector
  unfold Encode on concrete IEs, and an ensures there makes them far costlier.
- V2Message.ParseMarshal and V2Message.TruncatedMessageFails hold for
  encodable messages only: version 2, a sequence number that fits 3 octets,
  no TEID stored when the flag is clear, a length that fits 16 bits, and
  well-formed IEs (every value under 2^16 octets, and an IE grouped exactly
  when its type is Bearer Context). Outside those the round trip does not
  hold, for different reasons. A version other than 2 is rejected by the
  parser. A sequence number or length too wide for its field is written
  modulo the field width; a wrong length makes the parse fail or delimit a
  different body. A TEID stored with the flag clear is not written and reads
  back as 0. A value of 2^16 octets or more gets a truncated length field. A
  leaf IE of the Bearer Context type is parsed as grouped, so it fails or
  reads back as children, and a grouped IE of any other type reads back as a
  leaf holding its children's octets.

## Findings

| source | as written | input that shows it | evidently intended | confidence | as-written member | corrected member |
|---|---|---|---|---|---|---|
| v1/messages/generic.go:79-81 | `UnmarshalBinary` returns before touching `g.IEs` when the payload is under two octets. The message keeps the IEs it held before (V1Generic.UnmarshalBinary). | Call `UnmarshalBinary` on a `Generic` that already holds one IE, with a well-formed header whose payload is empty. The result still holds the old IE, but a fresh decode of the same octets gives none. | A payload under two octets decodes to a message with no IEs, whatever the message held before. | not executed | V1Generic.StaleIEsKept | V1Generic.UnmarshalBinaryIntended |

=== FILE: apn.dfy ===
/** Access point names: a dot-separated name travels as a sequence of
    labels, each preceded by one octet holding its length, with the dots
    themselves dropped. */
module Apn {
  import opened Bytes
  import opened Wrappers

  /** The separator octet, ASCII '.'. */
  const Dot: byte := 0x2e

  /** Splits a name at every dot. There is always at least one label, and
      no label contains a dot. */
  function Split(s: seq<byte>): (r: seq<seq<byte>>)
    ensures |r| >= 1
    ensures forall i :: 0 <= i < |r| ==> Dot !in r[i]
  {
    if |s| == 0 then [[]]
    else
      var rest := Split(s[1..]);
      if s[0] == Dot then [[]] + rest
      else [[s[0]] + rest[0]] + rest[1..]
  }

  /** Puts a dot between consecutive labels. */
  function Join(ls: seq<seq<byte>>): seq<byte>
  {
    if |ls| == 0 then []
    else if |ls| == 1 then ls[0]
    else ls[0] + [Dot] + Join(ls[1..])
  }

  /** Joining the labels of a name gives the name back. */
  lemma {:induction false} JoinSplit(s: seq<byte>)
    ensures Join(Split(s)) == s
  {
    if |s| > 0 {
      JoinSplit(s[1..]);
      var rest := Split(s[1..]);
      if s[0] == Dot {
        assert s == [Dot] + s[1..];
      } else {
        assert s == [s[0]] + s[1..];
        if |rest| > 1 {
          assert Split(s)[1..] == rest[1..];
        }
      }
    }
  }

  /** Splitting a join of dot-free labels gives the labels back. */
  lemma {:induction false} SplitJoin(ls: seq<seq<byte>>)
    requires |ls| >= 1
    requires forall i :: 0 <= i < |ls| ==> Dot !in ls[i]
    ensures Split(Join(ls)) == ls
  {
    if |ls| == 1 {
      SplitLabel(ls[0], []);
      assert ls[0] + [] == ls[0];
    } else {
      SplitJoin(ls[1..]);
      var t := [Dot] + Join(ls[1..]);
      SplitLabel(ls[0], t);
      assert Join(ls) == ls[0] + t;
      assert t[1..] == Join(ls[1..]);
      assert Split(t) == [[]] + ls[1..];
      assert ls[0] + Split(t)[0] == ls[0];
      assert Split(t)[1..] == ls[1..];
      assert ls == [ls[0]] + ls[1..];
    }
  }

  /** A dot-free prefix is absorbed into the first label of the rest. */
  lemma {:induction false} SplitLabel(l: seq<byte>, t: seq<byte>)
    requires Dot !in l
    requires |t| == 0 || t[0] == Dot
    ensures Split(l + t) == [l + Split(t)[0]] + Split(t)[1..]
  {
    if |l| > 0 {
      assert (l + t)[1..] == l[1..] + t;
      SplitLabel(l[1..], t);
      assert [l[0]] + (l[1..] + Split(t)[0]) == l + Split(t)[0];
    } else {
      assert l + t == t;
      assert Split(t) == [Split(t)[0]] + Split(t)[1..];
      if |t| > 0 {
        assert Split(t)[0] == [];
      }
      assert l + Split(t)[0] == Split(t)[0];
    }
  }

  /** Every label length fits in its one-octet length prefix. */
  predicate LabelsFit(ls: seq<seq<byte>>) {
    forall i :: 0 <= i < |ls| ==> |ls[i]| < 256
  }

  /** Wire form of a label list: each label's length octet, then the label. A
      label longer than 255 octets has its length truncated to 8 bits, as the
      Go conversion `uint8(len(label))` does. */
  function EncodeLabels(ls: seq<seq<byte>>): seq<byte>
  {
    if |ls| == 0 then []
    else [|ls[0]| % 256] + ls[0] + EncodeLabels(ls[1..])
  }

  /** Reads length-prefixed labels until the value is used up; a length
      octet that points past the end of the value is a malformed label. */
  function DecodeLabels(b: seq<byte>): (r: Result<seq<seq<byte>>>)
    ensures r.Success? ==> (|r.value| == 0 <==> |b| == 0)
  {
    if |b| == 0 then Success([])
    else if b[0] > |b| - 1 then Failure(MalformedLabel)
    else
      var rest :- DecodeLabels(b[1 + b[0]..]);
      Success([b[1..1 + b[0]]] + rest)
  }

  /** The value of an Access Point Name IE for a dotted name. */
  function EncodeAPN(name: seq<byte>): seq<byte>
  {
    EncodeLabels(Split(name))
  }

  /** The dotted name held in an Access Point Name IE value. */
  function DecodeAPN(b: seq<byte>): Result<seq<byte>>
  {
    var ls :- DecodeLabels(b);
    Success(Join(ls))
  }

  function SumLengths(ls: seq<seq<byte>>): nat
  {
    if |ls| == 0 then 0 else |ls[0]| + SumLengths(ls[1..])
  }

  /** The encoded labels take the label lengths plus one length octet per
      label. */
  lemma {:induction false} EncodeLabelsLength(ls: seq<seq<byte>>)
    ensures |EncodeLabels(ls)| == SumLengths(ls) + |ls|
  {
    if |ls| > 0 {
      EncodeLabelsLength(ls[1..]);
    }
  }

  lemma {:induction false} JoinLength(ls: seq<seq<byte>>)
    requires |ls| >= 1
    ensures |Join(ls)| == SumLengths(ls) + |ls| - 1
  {
    if |ls| > 1 {
      JoinLength(ls[1..]);
    }
  }

  /** An APN value is exactly one octet longer than the dotted name: each
      dot is replaced by a length octet and one more length octet leads. */
  lemma EncodeAPNLength(name: seq<byte>)
    ensures |EncodeAPN(name)| == |name| + 1
  {
    var ls := Split(name);
    EncodeLabelsLength(ls);
    JoinLength(ls);
    JoinSplit(name);
  }

  /** Decoding undoes encoding for label lists whose lengths fit an octet. */
  lemma {:induction false} DecodeEncodeLabels(ls: seq<seq<byte>>)
    requires LabelsFit(ls)
    ensures DecodeLabels(EncodeLabels(ls)) == Success(ls)
  {
    if |ls| > 0 {
      var b := EncodeLabels(ls);
      var n := |ls[0]|;
      assert b[0] == n;
      assert b[1..1 + n] == ls[0];
      assert b[1 + n..] == EncodeLabels(ls[1..]);
      DecodeEncodeLabels(ls[1..]);
      assert ls == [ls[0]] + ls[1..];
    }
  }

  /** Encoding undoes decoding: a well-formed label value is exactly the
      encoding of the labels read from it. */
  lemma {:induction false} EncodeDecodeLabels(b: seq<byte>)
    requires DecodeLabels(b).Success?
    ensures EncodeLabels(DecodeLabels(b).value) == b
  {
    if |b| > 0 {
      var rest := b[1 + b[0]..];
      calc {
        EncodeLabels(DecodeLabels(b).value);
        == { EncodeDecodeStep(b); }
        [b[0]] + b[1..1 + b[0]] + EncodeLabels(DecodeLabels(rest).value);
        == { EncodeDecodeLabels(rest); }
        [b[0]] + b[1..1 + b[0]] + rest;
        == { assert b == [b[0]] + b[1..1 + b[0]] + rest; }
        b;
      }
    }
  }

  /** One step of a successful decode: the first label, then the rest. */
  lemma DecodeLabelsStep(b: seq<byte>)
    requires DecodeLabels(b).Success? && |b| > 0
    ensures 1 + b[0] <= |b|
    ensures DecodeLabels(b[1 + b[0]..]).Success?
    ensures DecodeLabels(b).value == [b[1..1 + b[0]]] + DecodeLabels(b[1 + b[0]..]).value
  {
  }

  /** Re-encoding a successful decode one label at a time. */
  lemma EncodeDecodeStep(b: seq<byte>)
    requires DecodeLabels(b).Success? && |b| > 0
    ensures 1 + b[0] <= |b| && DecodeLabels(b[1 + b[0]..]).Success?
    ensures EncodeLabels(DecodeLabels(b).value)
         == [b[0]] + b[1..1 + b[0]] + EncodeLabels(DecodeLabels(b[1 + b[0]..]).value)
  {
    var head := b[1..1 + b[0]];
    var tail := DecodeLabels(b[1 + b[0]..]).value;
    DecodeLabelsStep(b);
    assert DecodeLabels(b).value == [head] + tail;
    EncodeLabelsCons(head, tail);
    var n: nat := |head|;
    assert n == b[0] && n < 256;
    SmallMod(n);
  }

  lemma SmallMod(n: nat)
    requires n < 256
    ensures n % 256 == n
  {
  }

  lemma EncodeLabelsCons(head: seq<byte>, tail: seq<seq<byte>>)
    ensures EncodeLabels([head] + tail) == [|head| % 256] + head + EncodeLabels(tail)
  {
    assert ([head] + tail)[1..] == tail;
  }

  /** No label of the list contains a dot. */
  predicate DotFree(ls: seq<seq<byte>>) {
    forall i :: 0 <= i < |ls| ==> Dot !in ls[i]
  }

  /** A non-empty APN value whose labels hold no dot is the encoding of the
      name decoded from it. The empty value decodes to the empty name, which
      encodes as a single zero octet, and a label holding a dot splits in
      two, so neither of those survives. */
  lemma EncodeDecodeAPN(b: seq<byte>)
    requires DecodeLabels(b).Success?
    requires |b| > 0
    requires DotFree(DecodeLabels(b).value)
    ensures DecodeAPN(b).Success?
    ensures EncodeAPN(DecodeAPN(b).value) == b
  {
    var ls := DecodeLabels(b).value;
    SplitJoin(ls);
    EncodeDecodeLabels(b);
  }

  /** A name whose labels all fit an octet survives the APN round trip. */
  lemma DecodeEncodeAPN(name: seq<byte>)
    requires LabelsFit(Split(name))
    ensures DecodeAPN(EncodeAPN(name)) == Success(name)
  {
    DecodeEncodeLabels(Split(name));
    JoinSplit(name);
  }
}

=== FILE: bcd.dfy ===
/** Swapped-nibble decimal digit strings (IMSI, MSISDN, MEI) and the PLMN
    identity packing of MCC and MNC digits, as 3GPP TS 29.274 carries them. */
module Bcd {
  import opened Bytes
  import opened Wrappers

  /** The nibble that pads an odd-length digit string. */
  const Filler: nat := 0xF

  predicate IsDigit(c: char) {
    '0' <= c <= '9'
  }

  predicate AllDigits(s: string) {
    forall i :: 0 <= i < |s| ==> IsDigit(s[i])
  }

  function DigitValue(c: char): (d: nat)
    requires IsDigit(c)
    ensures d < 10
  {
    (c as int) - ('0' as int)
  }

  function DigitChar(d: nat): (c: char)
    requires d < 10
    ensures IsDigit(c) && DigitValue(c) == d
  {
    (('0' as int) + d) as char
  }

  lemma DigitCharValue(c: char)
    requires IsDigit(c)
    ensures DigitChar(DigitValue(c)) == c
  {
  }

  /** Packs two digits per octet, the earlier digit in the low nibble; an odd
      digit count puts the filler nibble in the high half of the last octet. */
  function EncodeDigits(s: string): (r: seq<byte>)
    requires AllDigits(s)
    ensures |r| == (|s| + 1) / 2
  {
    if |s| == 0 then []
    else if |s| == 1 then [Filler * 16 + DigitValue(s[0])]
    else [DigitValue(s[1]) * 16 + DigitValue(s[0])] + EncodeDigits(s[2..])
  }

  /** The swapped-nibble encoder of the IE constructors: the identities of
      3GPP TS 29.274 are decimal digit strings, so a string with any other
      character has no encoding here. */
  function SwappedDigits(s: string): (r: Option<seq<byte>>)
    ensures r.Some? <==> AllDigits(s)
    ensures r.Some? ==> |r.value| == (|s| + 1) / 2
  {
    if AllDigits(s) then Some(EncodeDigits(s)) else None
  }

  /** Reads swapped-nibble digits. Every nibble must be a decimal digit,
      except the high nibble of the last octet, which may be the filler. */
  function DecodeDigits(b: seq<byte>): (r: Option<string>)
  {
    if |b| == 0 then Some([])
    else
      var lo := b[0] % 16;
      var hi := b[0] / 16;
      if lo > 9 then None
      else if hi == Filler && |b| == 1 then Some([DigitChar(lo)])
      else if hi > 9 then None
      else
        var rest :- DecodeDigits(b[1..]);
        Some([DigitChar(lo), DigitChar(hi)] + rest)
  }

  /** Position by position: octet i carries digit 2i in its low nibble and
      digit 2i+1 (or the filler, past the end of an odd string) in its high
      nibble. */
  lemma {:induction false} EncodeDigitsNibbles(s: string)
    requires AllDigits(s)
    ensures forall i :: 0 <= i < |EncodeDigits(s)| ==>
      EncodeDigits(s)[i] % 16 == DigitValue(s[2 * i]) &&
      EncodeDigits(s)[i] / 16 == (if 2 * i + 1 < |s| then DigitValue(s[2 * i + 1]) else Filler)
  {
    if |s| >= 2 {
      EncodeDigitsNibbles(s[2..]);
      var r := EncodeDigits(s);
      forall i | 1 <= i < |r|
        ensures r[i] == EncodeDigits(s[2..])[i - 1]
      {
      }
    }
  }

  /** Octet by octet: octet i is digit 2i + 1 (or the filler) times 16
      plus digit 2i. */
  lemma EncodeDigitsOctets(s: string)
    requires AllDigits(s)
    ensures forall i :: 0 <= i < |EncodeDigits(s)| ==>
      EncodeDigits(s)[i] == (if 2 * i + 1 < |s| then DigitValue(s[2 * i + 1]) else Filler) * 16 + DigitValue(s[2 * i])
  {
    EncodeDigitsNibbles(s);
    var r := EncodeDigits(s);
    forall i | 0 <= i < |r|
      ensures r[i] == r[i] / 16 * 16 + r[i] % 16
    {
    }
  }

  /** Decoding undoes encoding for every decimal digit string. */
  lemma {:induction false} DecodeEncodeDigits(s: string)
    requires AllDigits(s)
    ensures DecodeDigits(EncodeDigits(s)) == Some(s)
  {
    if |s| == 1 {
      DigitCharValue(s[0]);
      NibblePair(Filler, DigitValue(s[0]));
      assert s == [s[0]];
    } else if |s| >= 2 {
      var b := EncodeDigits(s);
      var o := DigitValue(s[1]) * 16 + DigitValue(s[0]);
      assert b[0] == o && b[1..] == EncodeDigits(s[2..]);
      NibblePair(DigitValue(s[1]), DigitValue(s[0]));
      DecodeEncodeDigits(s[2..]);
      DigitCharValue(s[0]);
      DigitCharValue(s[1]);
      assert s == [s[0], s[1]] + s[2..];
    }
  }

  /** Encoding undoes decoding: a decodable octet string is the canonical
      encoding of its digits, so the wire form is reproduced exactly. */
  lemma {:induction false} EncodeDecodeDigits(b: seq<byte>)
    requires DecodeDigits(b).Some?
    ensures AllDigits(DecodeDigits(b).value)
    ensures EncodeDigits(DecodeDigits(b).value) == b
  {
    if |b| > 0 {
      var lo := b[0] % 16;
      var hi := b[0] / 16;
      assert b[0] == hi * 16 + lo;
      var s := DecodeDigits(b).value;
      if hi == Filler && |b| == 1 {
        assert s == [DigitChar(lo)];
        assert b == [b[0]];
      } else {
        var rest := DecodeDigits(b[1..]).value;
        assert s == [DigitChar(lo), DigitChar(hi)] + rest;
        EncodeDecodeDigits(b[1..]);
        assert s[2..] == rest;
        assert EncodeDigits(s) == [hi * 16 + lo] + EncodeDigits(rest);
        assert b == [b[0]] + b[1..];
      }
    }
  }

  /** The three-octet PLMN identity: MCC digit 2|1, MNC digit 3 (or filler)|
      MCC digit 3, MNC digit 2|1. The MCC has three digits and the MNC two or
      three; anything else has no encoding. */
  function EncodePLMN(mcc: string, mnc: string): (r: Option<seq<byte>>)
    ensures r.Some? <==> |mcc| == 3 && (|mnc| == 2 || |mnc| == 3) && AllDigits(mcc) && AllDigits(mnc)
    ensures r.Some? ==> |r.value| == 3
  {
    if |mcc| == 3 && (|mnc| == 2 || |mnc| == 3) && AllDigits(mcc) && AllDigits(mnc) then
      var mnc3 := if |mnc| == 3 then DigitValue(mnc[2]) else Filler;
      Some([ DigitValue(mcc[1]) * 16 + DigitValue(mcc[0]),
             mnc3 * 16 + DigitValue(mcc[2]),
             DigitValue(mnc[1]) * 16 + DigitValue(mnc[0]) ])
    else None
  }

  /** Reads a PLMN identity back into its MCC and MNC digit strings. */
  function DecodePLMN(b: seq<byte>): (r: Option<(string, string)>)
  {
    if |b| != 3 then None
    else
      var m1 := b[0] % 16;
      var m2 := b[0] / 16;
      var m3 := b[1] % 16;
      var n3 := b[1] / 16;
      var n1 := b[2] % 16;
      var n2 := b[2] / 16;
      if m1 > 9 || m2 > 9 || m3 > 9 || n1 > 9 || n2 > 9 || (n3 > 9 && n3 != Filler) then None
      else
        var mcc := [DigitChar(m1), DigitChar(m2), DigitChar(m3)];
        var mnc := if n3 == Filler then [DigitChar(n1), DigitChar(n2)]
                   else [DigitChar(n1), DigitChar(n2), DigitChar(n3)];
        Some((mcc, mnc))
  }

  /** Every encodable MCC/MNC pair decodes back to itself. */
  lemma DecodeEncodePLMN(mcc: string, mnc: string)
    requires EncodePLMN(mcc, mnc).Some?
    ensures DecodePLMN(EncodePLMN(mcc, mnc).value) == Some((mcc, mnc))
  {
    DigitCharValue(mcc[0]);
    DigitCharValue(mcc[1]);
    DigitCharValue(mcc[2]);
    DigitCharValue(mnc[0]);
    DigitCharValue(mnc[1]);
    NibblePair(DigitValue(mcc[1]), DigitValue(mcc[0]));
    NibblePair(DigitValue(mnc[1]), DigitValue(mnc[0]));
    assert mcc == [mcc[0], mcc[1], mcc[2]];
    if |mnc| == 3 {
      assert mnc == [mnc[0], mnc[1], mnc[2]];
      DigitCharValue(mnc[2]);
      NibblePair(DigitValue(mnc[2]), DigitValue(mcc[2]));
    } else {
      NibblePair(Filler, DigitValue(mcc[2]));
      assert mnc == [mnc[0], mnc[1]];
    }
  }

  /** Every decodable PLMN identity re-encodes to the same three octets. */
  lemma EncodeDecodePLMN(b: seq<byte>)
    requires DecodePLMN(b).Some?
    ensures EncodePLMN(DecodePLMN(b).value.0, DecodePLMN(b).value.1) == Some(b)
  {
    NibbleSplit(b[0]);
    NibbleSplit(b[1]);
    NibbleSplit(b[2]);
    var (mcc, mnc) := DecodePLMN(b).value;
    assert AllDigits(mcc) && AllDigits(mnc);
    var e := EncodePLMN(mcc, mnc).value;
    assert e[0] == b[0] && e[1] == b[1] && e[2] == b[2];
    assert e == b;
  }
}

=== FILE: bytes.dfy ===
/** Octets and fixed-width big-endian unsigned integers, including the
    non-power-of-two widths (3-octet sequence numbers, 5-octet bit rates)
    that the GTP formats use. */
module Bytes {

  type byte = x: int | 0 <= x < 256

  type uint16 = x: int | 0 <= x < 0x1_0000
  type uint32 = x: int | 0 <= x < 0x1_0000_0000

  /** Half an octet. */
  type nibble = x: int | 0 <= x < 16

  /** Two nibbles make an octet, and the octet gives them back. */
  lemma NibblePair(hi: nat, lo: nat)
    requires hi < 16 && lo < 16
    ensures (hi * 16 + lo) % 16 == lo && (hi * 16 + lo) / 16 == hi
  {
  }

  lemma NibbleSplit(b: byte)
    ensures b == (b / 16) * 16 + b % 16 && b / 16 < 16
  {
  }

  /** 256^w: the number of values a w-octet field can hold. */
  function Pow256(w: nat): (r: nat)
    ensures r >= 1
  {
    if w == 0 then 1 else 256 * Pow256(w - 1)
  }

  /** Encodes `v` big-endian in exactly `w` octets. High-order bits that do
      not fit are dropped, as a Go conversion to a narrower unsigned integer
      drops them. */
  function UintBE(v: nat, w: nat): (r: seq<byte>)
    ensures |r| == w
  {
    if w == 0 then [] else UintBE(v / 256, w - 1) + [v % 256]
  }

  /** Reads a big-endian unsigned integer spanning all of `s`. */
  function FromBE(s: seq<byte>): (r: nat)
    ensures r < Pow256(|s|)
  {
    if |s| == 0 then 0
    else
      var hi := FromBE(s[..|s| - 1]);
      HighLowBound(hi, s[|s| - 1], Pow256(|s| - 1));
      hi * 256 + s[|s| - 1]
  }

  lemma HighLowBound(hi: nat, lo: nat, p: nat)
    requires hi < p && lo < 256
    ensures hi * 256 + lo < 256 * p
  {
  }

  /** Splitting a value into its last octet and the rest, and reducing each
      part, reduces the whole modulo 256 * p. */
  lemma ModSplit(v: nat, p: nat)
    requires p >= 1
    ensures v % (256 * p) == ((v / 256) % p) * 256 + v % 256
  {
    var q := v / 256;
    var a := q / p;
    var b := q % p;
    assert v == 256 * q + v % 256;
    assert q == p * a + b;
    assert v == (256 * p) * a + (b * 256 + v % 256);
    HighLowBound(b, v % 256, p);
    ModUnique(v, 256 * p, a, b * 256 + v % 256);
  }

  lemma ModUnique(v: nat, m: nat, k: nat, x: nat)
    requires m >= 1 && x < m && v == m * k + x
    ensures v % m == x
  {
    var q := v / m;
    assert v == m * q + v % m;
    assert m * (k + 1) == m * k + m && m * (q + 1) == m * q + m;
    assert q == k;
  }

  /** Encoding then decoding a w-octet field yields the value modulo 256^w:
      exactly the value when it fits, its truncation otherwise. */
  lemma {:induction false} FromUintBE(v: nat, w: nat)
    ensures FromBE(UintBE(v, w)) == v % Pow256(w)
  {
    if w > 0 {
      var s := UintBE(v, w);
      assert s[..|s| - 1] == UintBE(v / 256, w - 1);
      FromUintBE(v / 256, w - 1);
      ModSplit(v, Pow256(w - 1));
    }
  }

  /** Decoding then re-encoding at the same width reproduces the octets. */
  lemma {:induction false} UintBEFrom(s: seq<byte>)
    ensures UintBE(FromBE(s), |s|) == s
  {
    if |s| > 0 {
      var init := s[..|s| - 1];
      var v := FromBE(s);
      assert v == FromBE(init) * 256 + s[|s| - 1];
      assert v / 256 == FromBE(init) && v % 256 == s[|s| - 1] by {
        DivModDigit(FromBE(init), s[|s| - 1]);
      }
      UintBEFrom(init);
      assert s == init + [s[|s| - 1]];
    }
  }

  lemma DivModDigit(hi: nat, lo: nat)
    requires lo < 256
    ensures (hi * 256 + lo) / 256 == hi && (hi * 256 + lo) % 256 == lo
  {
  }

  /** A value below 256^w survives a w-octet round trip unchanged. */
  lemma FromUintBEFits(v: nat, w: nat)
    requires v < Pow256(w)
    ensures FromBE(UintBE(v, w)) == v
  {
    FromUintBE(v, w);
  }

  /** Decoding is injective at a fixed width: two octet strings of the same
      length that read as the same number are equal. */
  lemma FromBEInjective(s: seq<byte>, t: seq<byte>)
    requires |s| == |t| && FromBE(s) == FromBE(t)
    ensures s == t
  {
    UintBEFrom(s);
    UintBEFrom(t);
  }
}

=== FILE: csr_vector.dfy ===
/** The Create Session Request test vector: the IEs an MME sends to an
    SGW, and the 241 octets they serialise to, as one equality per IE and
    one for the whole message. */
module CreateSessionRequestVector {
  import opened Bytes
  import opened Wrappers
  import opened V2IE
  import opened V2IETypes
  import opened V2Message
  import opened CreateSessionRequest
  import Bcd
  import Apn

  // ----- The expected octets, one constant per IE -----

  const HeaderVector: seq<byte> := [0x48, 0x20, 0x00, 0xed, 0x11, 0x22, 0x33, 0x44, 0x00, 0x00, 0x01, 0x00]
  /** The swapped-nibble digits of the IMSI, and of the MSISDN and MEI. */
  const ImsiOctetsVector: seq<byte> := [0x21, 0x43, 0x15, 0x32, 0x54, 0x76, 0x98, 0xf0]
  const MsisdnOctetsVector: seq<byte> := [0x21, 0x43, 0x05, 0x21, 0x43, 0x65, 0x87, 0xf9]
  /** MCC 123, MNC 45. */
  const PLMNVector: seq<byte> := [0x21, 0xf3, 0x54]
  const ImsiVector: seq<byte> := [0x01, 0x00, 0x08, 0x00] + ImsiOctetsVector
  const MsisdnVector: seq<byte> := [0x4c, 0x00, 0x08, 0x00] + MsisdnOctetsVector
  const MeiVector: seq<byte> := [0x4b, 0x00, 0x08, 0x00] + MsisdnOctetsVector
  const UliVector: seq<byte> := [0x56, 0x00, 0x0d, 0x00, 0x18]
                               + PLMNVector + [0x00, 0x01]
                               + PLMNVector + [0x00, 0x00, 0x01, 0x01]
  const ServingNetworkVector: seq<byte> := [0x53, 0x00, 0x03, 0x00] + PLMNVector
  const RatTypeVector: seq<byte> := [0x52, 0x00, 0x01, 0x00, 0x06]
  const IndicationVector: seq<byte> := [0x4d, 0x00, 0x07, 0x00, 0xa1, 0x08, 0x15, 0x10, 0x88, 0x81, 0x40]
  const FteidS11Vector: seq<byte> := [0x57, 0x00, 0x09, 0x00, 0x8a, 0xff, 0xff, 0xff, 0xff] + [0x01, 0x01, 0x01, 0x01]
  const FteidS5S8Vector: seq<byte> := [0x57, 0x00, 0x09, 0x01, 0x87, 0xff, 0xff, 0xff, 0xff] + [0x01, 0x01, 0x01, 0x02]
  const ApnVector: seq<byte> := [0x47, 0x00, 0x11, 0x00, 0x04, 0x73, 0x6f, 0x6d, 0x65, 0x03, 0x61, 0x70, 0x6e,
                                 0x07, 0x65, 0x78, 0x61, 0x6d, 0x70, 0x6c, 0x65]
  const SelectionModeVector: seq<byte> := [0x80, 0x00, 0x01, 0x00, 0x00]
  const PdnTypeVector: seq<byte> := [0x63, 0x00, 0x01, 0x00, 0x01]
  const PaaVector: seq<byte> := [0x4f, 0x00, 0x05, 0x00, 0x01, 0x02, 0x02, 0x02, 0x02]
  const ApnRestrictionVector: seq<byte> := [0x7f, 0x00, 0x01, 0x00, 0x01]
  const AmbrVector: seq<byte> := [0x48, 0x00, 0x08, 0x00, 0x11, 0x11, 0x11, 0x11, 0x22, 0x22, 0x22, 0x22]
  const UplinkRateOctets: seq<byte> := [0x11, 0x11, 0x11, 0x11, 0x11]
  const DownlinkRateOctets: seq<byte> := [0x22, 0x22, 0x22, 0x22, 0x22]
  const BearerQoSOctetsVector: seq<byte> :=
    [0x49, 0xff] + UplinkRateOctets + DownlinkRateOctets + UplinkRateOctets + DownlinkRateOctets
  const BearerQoSVector: seq<byte> := [0x50, 0x00, 0x16, 0x00] + BearerQoSOctetsVector
  const BearerContext1Vector: seq<byte> := [0x5d, 0x00, 0x1f, 0x00] + [0x49, 0x00, 0x01, 0x00, 0x05] + BearerQoSVector
  const BearerContext2Vector: seq<byte> := [0x5d, 0x00, 0x1f, 0x00] + [0x49, 0x00, 0x01, 0x00, 0x06] + BearerQoSVector

  /** The IEs after the header, in the order the vector lists them. */
  const BodyParts: seq<seq<byte>> :=
    [ImsiVector, MsisdnVector, MeiVector, UliVector, ServingNetworkVector, RatTypeVector,
     IndicationVector, FteidS11Vector] +
    [FteidS5S8Vector, ApnVector, SelectionModeVector, PdnTypeVector, PaaVector, ApnRestrictionVector,
     AmbrVector, BearerContext1Vector, BearerContext2Vector]

  /** The parts one after the other. */
  function Concat(parts: seq<seq<byte>>): (r: seq<byte>)
    ensures |r| == Lengths(parts)
  {
    if |parts| == 0 then [] else parts[0] + Concat(parts[1..])
  }

  function Lengths(parts: seq<seq<byte>>): nat {
    if |parts| == 0 then 0 else |parts[0]| + Lengths(parts[1..])
  }

  const BodyVector: seq<byte> := Concat(BodyParts)

  const SerializedVector: seq<byte> := HeaderVector + BodyVector

  // ----- Constructor arguments -----

  const S11MMEGTPC: byte := 10
  const S5S8PGWGTPC: byte := 7
  const RATTypeEUTRAN: byte := 6
  const APNRestrictionPublic1: byte := 1
  const SelectionModeMSorNetworkProvidedAPNSubscribedVerified: byte := 0

  const ImsiDigits: string := "123451234567890"
  /** The vector gives the MSISDN and the MEI the same fifteen digits. */
  const MsisdnDigits: string := "123450123456789"
  const MeiDigits: string := MsisdnDigits
  const VectorMCC: string := "123"
  const VectorMNC: string := "45"

  /** The labels of the vector's access point name. */
  const SomeLabel: seq<byte> := [0x73, 0x6f, 0x6d, 0x65]
  const ApnLabel: seq<byte> := [0x61, 0x70, 0x6e]
  const ExampleLabel: seq<byte> := [0x65, 0x78, 0x61, 0x6d, 0x70, 0x6c, 0x65]

  /** The octets of "some.apn.example": three labels joined by dots. */
  const ApnName: seq<byte> := SomeLabel + [Apn.Dot] + ApnLabel + [Apn.Dot] + ExampleLabel

  /** The bit rates of the vector's Bearer QoS, maximum and guaranteed
      alike. */
  const UplinkRate: nat := 0x1111111111
  const DownlinkRate: nat := 0x2222222222

  /** The Bearer QoS both Bearer Contexts carry. */
  function VectorBearerQoS(): IE {
    NewBearerQoS(1, 2, 1, 0xff, UplinkRate, DownlinkRate, UplinkRate, DownlinkRate)
  }

  const ImsiArg: Option<IE> := NewIMSI(ImsiDigits)
  const MsisdnArg: Option<IE> := NewMSISDN(MsisdnDigits)
  const ApnArg: Option<IE> := Some(NewAccessPointName(ApnName))
  const SenderFTEIDArg: Option<IE> := Some(NewFullyQualifiedTEID(S11MMEGTPC, 0xffffffff, Some([1, 1, 1, 1]), None))
  const PGWFTEIDArg: Option<IE> :=
    Some(WithInstance(NewFullyQualifiedTEID(S5S8PGWGTPC, 0xffffffff, Some([1, 1, 1, 2]), None), 1))
  const PDNTypeArg: Option<IE> := Some(NewPDNType(PDNTypeIPv4))
  const AMBRArg: Option<IE> := Some(NewAggregateMaximumBitRate(0x11111111, 0x22222222))
  const IndicationArg: Option<IE> := Some(NewIndicationFromOctets([0xa1, 0x08, 0x15, 0x10, 0x88, 0x81, 0x40]))
  const BearerContext1Arg: Option<IE> := Some(NewBearerContext([NewEPSBearerID(5), VectorBearerQoS()]))
  const BearerContext2Arg: Option<IE> := Some(NewBearerContext([NewEPSBearerID(6), VectorBearerQoS()]))
  const MEIArg: Option<IE> := NewMobileEquipmentIdentity(MeiDigits)
  const ServingNetworkArg: Option<IE> := NewServingNetwork(VectorMCC, VectorMNC)
  const PAAArg: Option<IE> := Some(NewPDNAddressAllocation([2, 2, 2, 2]))
  const APNRestrictionArg: Option<IE> := Some(NewAPNRestriction(APNRestrictionPublic1))
  const ULIArg: Option<IE> :=
    NewUserLocationInformation(Some(TAI(VectorMCC, VectorMNC, 0x0001)), Some(ECGI(VectorMCC, VectorMNC, 0x00000101)))
  const RATTypeArg: Option<IE> := Some(NewRATType(RATTypeEUTRAN))
  const SelectionModeArg: Option<IE> := Some(NewSelectionMode(SelectionModeMSorNetworkProvidedAPNSubscribedVerified))

  /** The constructor arguments of the vector, in the order the test
      passes them. */
  const VectorArgs: seq<Option<IE>> :=
    [ImsiArg, MsisdnArg, ApnArg, SenderFTEIDArg, PGWFTEIDArg, PDNTypeArg, AMBRArg, IndicationArg] +
    [BearerContext1Arg, BearerContext2Arg, MEIArg, ServingNetworkArg, PAAArg, APNRestrictionArg,
     ULIArg, RATTypeArg, SelectionModeArg]

  // ----- One IE at a time -----

  /** A short leaf IE's four-octet prefix: type, a length whose high
      octet is zero, and instance 0. */
  lemma LeafOctets(tag: byte, v: seq<byte>)
    requires |v| < 256
    ensures Encode(LeafIE(tag, v)) == [tag, 0, |v|, 0] + v
  {
    ShortLength(|v|);
  }

  /** The same for a leaf under any instance number. */
  lemma LeafInstanceOctets(tag: byte, instance: nibble, v: seq<byte>)
    requires |v| < 256
    ensures Encode(Leaf(tag, 0, instance, v)) == [tag, 0, |v|, instance] + v
  {
    ShortLength(|v|);
  }

  /** A length below 256 as a two-octet big-endian field. */
  lemma ShortLength(n: nat)
    requires n < 256
    ensures UintBE(n, 2) == [0, n]
  {
    assert UintBE(n, 2) == UintBE(n / 256, 1) + [n % 256];
    assert UintBE(n / 256, 1) == UintBE(0, 0) + [0];
  }

  // ----- The digit strings -----

  lemma ImsiIsDigits()
    ensures Bcd.AllDigits(ImsiDigits)
  {
  }

  lemma ImsiOctetsLow()
    requires Bcd.AllDigits(ImsiDigits)
    ensures |Bcd.EncodeDigits(ImsiDigits)| == 8
    ensures Bcd.EncodeDigits(ImsiDigits)[0] == 0x21 && Bcd.EncodeDigits(ImsiDigits)[1] == 0x43
    ensures Bcd.EncodeDigits(ImsiDigits)[2] == 0x15 && Bcd.EncodeDigits(ImsiDigits)[3] == 0x32
  {
    Bcd.EncodeDigitsOctets(ImsiDigits);
  }

  lemma ImsiOctetsHigh()
    requires Bcd.AllDigits(ImsiDigits)
    ensures Bcd.EncodeDigits(ImsiDigits)[4] == 0x54 && Bcd.EncodeDigits(ImsiDigits)[5] == 0x76
    ensures Bcd.EncodeDigits(ImsiDigits)[6] == 0x98 && Bcd.EncodeDigits(ImsiDigits)[7] == 0xf0
  {
    Bcd.EncodeDigitsOctets(ImsiDigits);
  }

  /** Fifteen digits: seven full octets, then the last digit under the
      filler nibble. */
  lemma ImsiOctets()
    ensures Bcd.AllDigits(ImsiDigits)
    ensures Bcd.EncodeDigits(ImsiDigits) == ImsiOctetsVector
  {
    ImsiIsDigits();
    ImsiOctetsLow();
    ImsiOctetsHigh();
  }

  lemma MsisdnIsDigits()
    ensures Bcd.AllDigits(MsisdnDigits)
  {
  }

  lemma MsisdnOctetsLow()
    requires Bcd.AllDigits(MsisdnDigits)
    ensures |Bcd.EncodeDigits(MsisdnDigits)| == 8
    ensures Bcd.EncodeDigits(MsisdnDigits)[0] == 0x21 && Bcd.EncodeDigits(MsisdnDigits)[1] == 0x43
    ensures Bcd.EncodeDigits(MsisdnDigits)[2] == 0x05 && Bcd.EncodeDigits(MsisdnDigits)[3] == 0x21
  {
    Bcd.EncodeDigitsOctets(MsisdnDigits);
  }

  lemma MsisdnOctetsHigh()
    requires Bcd.AllDigits(MsisdnDigits)
    ensures Bcd.EncodeDigits(MsisdnDigits)[4] == 0x43 && Bcd.EncodeDigits(MsisdnDigits)[5] == 0x65
    ensures Bcd.EncodeDigits(MsisdnDigits)[6] == 0x87 && Bcd.EncodeDigits(MsisdnDigits)[7] == 0xf9
  {
    Bcd.EncodeDigitsOctets(MsisdnDigits);
  }

  lemma MsisdnOctets()
    ensures Bcd.AllDigits(MsisdnDigits)
    ensures Bcd.EncodeDigits(MsisdnDigits) == MsisdnOctetsVector
  {
    MsisdnIsDigits();
    MsisdnOctetsLow();
    MsisdnOctetsHigh();
  }

  /** MCC 123 and MNC 45: the MNC's missing third digit is the filler. */
  lemma VectorPLMN()
    ensures Bcd.EncodePLMN(VectorMCC, VectorMNC) == Some(PLMNVector)
  {
    assert Bcd.AllDigits(VectorMCC) && Bcd.AllDigits(VectorMNC);
  }

  // ----- One argument at a time -----

  lemma ImsiArgEncoding() returns (x: IE)
    ensures ImsiArg == Some(x) && x.tag == IMSIType
    ensures Encode(x) == ImsiVector
  {
    ImsiOctets();
    x := ImsiArg.value;
    LeafOctets(x.tag, x.payload);
  }

  lemma MsisdnArgEncoding() returns (x: IE)
    ensures MsisdnArg == Some(x) && x.tag == MSISDNType
    ensures Encode(x) == MsisdnVector
  {
    MsisdnOctets();
    x := MsisdnArg.value;
    LeafOctets(x.tag, x.payload);
  }

  lemma MEIArgEncoding() returns (x: IE)
    ensures MEIArg == Some(x) && x.tag == MobileEquipmentIdentityType
    ensures Encode(x) == MeiVector
  {
    MsisdnOctets();
    x := MEIArg.value;
    LeafOctets(x.tag, x.payload);
  }

  /** The three labels joined by dots. */
  lemma JoinApnLabels()
    ensures Apn.Join([SomeLabel, ApnLabel, ExampleLabel])
         == SomeLabel + [Apn.Dot] + ApnLabel + [Apn.Dot] + ExampleLabel
  {
    JoinCons(ApnLabel, [ExampleLabel]);
    JoinCons(SomeLabel, [ApnLabel, ExampleLabel]);
  }

  lemma JoinCons(l: seq<byte>, rest: seq<seq<byte>>)
    requires |rest| >= 1
    ensures Apn.Join([l] + rest) == l + [Apn.Dot] + Apn.Join(rest)
  {
    assert ([l] + rest)[1..] == rest;
  }

  lemma ApnArgEncoding() returns (x: IE)
    ensures ApnArg == Some(x) && x.tag == AccessPointNameType
    ensures Encode(x) == ApnVector
  {
    var ls := [SomeLabel, ApnLabel, ExampleLabel];
    JoinApnLabels();
    Apn.SplitJoin(ls);
    assert ls[1..] == [ApnLabel, ExampleLabel];
    assert ls[1..][1..] == [ExampleLabel];
    assert Apn.EncodeLabels([ExampleLabel]) == [7] + ExampleLabel;
    assert Apn.EncodeLabels([ApnLabel, ExampleLabel]) == [3] + ApnLabel + [7] + ExampleLabel;
    assert Apn.EncodeLabels(ls) == [4] + SomeLabel + [3] + ApnLabel + [7] + ExampleLabel;
    x := ApnArg.value;
  }

  lemma ULIArgEncoding() returns (x: IE)
    ensures ULIArg == Some(x) && x.tag == UserLocationInformationType
    ensures Encode(x) == UliVector
  {
    VectorPLMN();
    assert UintBE(0x0001, 2) == [0x00, 0x01];
    assert UintBE(0x00000101, 4) == [0x00, 0x00, 0x01, 0x01];
    x := ULIArg.value;
    LeafOctets(x.tag, x.payload);
  }

  lemma ServingNetworkArgEncoding() returns (x: IE)
    ensures ServingNetworkArg == Some(x) && x.tag == ServingNetworkType
    ensures Encode(x) == ServingNetworkVector
  {
    VectorPLMN();
    x := ServingNetworkArg.value;
    LeafOctets(x.tag, x.payload);
  }

  lemma RATTypeArgEncoding() returns (x: IE)
    ensures RATTypeArg == Some(x) && x.tag == RATTypeType
    ensures Encode(x) == RatTypeVector
  {
    x := RATTypeArg.value;
    LeafOctets(x.tag, x.payload);
  }

  lemma IndicationArgEncoding() returns (x: IE)
    ensures IndicationArg == Some(x) && x.tag == IndicationType
    ensures Encode(x) == IndicationVector
  {
    x := IndicationArg.value;
  }

  /** An IPv4 F-TEID with an all-ones TEID. */
  lemma FteidOctets(ifType: byte, flags: byte, v4: IPv4) returns (x: IE)
    requires flags == 0x80 + ifType % 64
    ensures x == NewFullyQualifiedTEID(ifType, 0xffffffff, Some(v4), None)
    ensures x.Leaf? && x.tag == FullyQualifiedTEIDType && x.spare == 0 && x.instance == 0
    ensures x.payload == [flags, 0xff, 0xff, 0xff, 0xff] + v4
    ensures Encode(x) == [0x57, 0x00, 0x09, 0x00, flags, 0xff, 0xff, 0xff, 0xff] + v4
  {
    x := NewFullyQualifiedTEID(ifType, 0xffffffff, Some(v4), None);
    AllOnesTeid();
    ShortLength(9);
  }

  /** The same F-TEID under another instance number. */
  lemma FteidInstanceOctets(ifType: byte, flags: byte, v4: IPv4, instance: nibble) returns (x: IE)
    requires flags == 0x80 + ifType % 64
    ensures x == WithInstance(NewFullyQualifiedTEID(ifType, 0xffffffff, Some(v4), None), instance)
    ensures x.tag == FullyQualifiedTEIDType && x.instance == instance
    ensures Encode(x) == [0x57, 0x00, 0x09, instance, flags, 0xff, 0xff, 0xff, 0xff] + v4
  {
    var y := FteidOctets(ifType, flags, v4);
    x := WithInstance(y, instance);
    assert x == Leaf(FullyQualifiedTEIDType, 0, instance, y.payload);
    LeafInstanceOctets(FullyQualifiedTEIDType, instance, y.payload);
    var head: seq<byte> := [0x57 as byte, 0x00, 0x09, instance as byte];
    PrefixRegroup(head, [flags, 0xff, 0xff, 0xff, 0xff], v4);
  }

  lemma PrefixRegroup(a: seq<byte>, b: seq<byte>, c: seq<byte>)
    ensures a + (b + c) == (a + b) + c
  {
  }

  lemma AllOnesTeid()
    ensures UintBE(0xffffffff, 4) == [0xff, 0xff, 0xff, 0xff]
  {
  }

  lemma SenderFTEIDArgEncoding() returns (x: IE)
    ensures SenderFTEIDArg == Some(x) && x.tag == FullyQualifiedTEIDType
    ensures x.instance == 0
    ensures Encode(x) == FteidS11Vector
  {
    x := FteidOctets(S11MMEGTPC, 0x8a, [1, 1, 1, 1]);
  }

  /** The second F-TEID differs from the first in its interface type, its
      address and its instance number, which lands in the fourth octet. */
  lemma PGWFTEIDArgEncoding() returns (x: IE)
    ensures PGWFTEIDArg == Some(x) && x.tag == FullyQualifiedTEIDType
    ensures x.instance == 1
    ensures Encode(x) == FteidS5S8Vector
  {
    x := FteidInstanceOctets(S5S8PGWGTPC, 0x87, [1, 1, 1, 2], 1);
  }

  lemma SelectionModeArgEncoding() returns (x: IE)
    ensures SelectionModeArg == Some(x) && x.tag == SelectionModeType
    ensures Encode(x) == SelectionModeVector
  {
    x := SelectionModeArg.value;
    LeafOctets(x.tag, x.payload);
  }

  lemma PDNTypeArgEncoding() returns (x: IE)
    ensures PDNTypeArg == Some(x) && x.tag == PDNTypeType
    ensures Encode(x) == PdnTypeVector
  {
    x := PDNTypeArg.value;
    LeafOctets(x.tag, x.payload);
  }

  lemma PAAArgEncoding() returns (x: IE)
    ensures PAAArg == Some(x) && x.tag == PDNAddressAllocationType
    ensures Encode(x) == PaaVector
  {
    x := PAAArg.value;
  }

  lemma APNRestrictionArgEncoding() returns (x: IE)
    ensures APNRestrictionArg == Some(x) && x.tag == APNRestrictionType
    ensures Encode(x) == ApnRestrictionVector
  {
    x := APNRestrictionArg.value;
    LeafOctets(x.tag, x.payload);
  }

  lemma AMBRArgEncoding() returns (x: IE)
    ensures AMBRArg == Some(x) && x.tag == AggregateMaximumBitRateType
    ensures Encode(x) == AmbrVector
  {
    x := AMBRArg.value;
  }

  lemma BearerQoSEncoding()
    ensures Encode(VectorBearerQoS()) == BearerQoSVector
  {
    RateOctets();
    assert ArpOctet(1, 2, 1) == 0x49;
    var p := VectorBearerQoS().payload;
    assert p == BearerQoSOctetsVector;
    LeafOctets(BearerQoSType, p);
  }

  /** Each rate is five octets repeating one value. */
  lemma RateOctets()
    ensures UintBE(UplinkRate, 5) == UplinkRateOctets
    ensures UintBE(DownlinkRate, 5) == DownlinkRateOctets
  {
    UplinkRateOctetsValue();
    DownlinkRateOctetsValue();
  }

  lemma UplinkRateOctetsValue()
    ensures UintBE(UplinkRate, 5) == UplinkRateOctets
  {
  }

  lemma DownlinkRateOctetsValue()
    ensures UintBE(DownlinkRate, 5) == DownlinkRateOctets
  {
  }

  /** A short grouped IE's four-octet prefix, instance 0. */
  lemma GroupedOctets(tag: byte, cs: seq<IE>)
    requires |EncodeAll(cs)| < 256
    ensures Encode(Grouped(tag, 0, 0, cs)) == [tag, 0, |EncodeAll(cs)|, 0] + EncodeAll(cs)
  {
    ShortLength(|EncodeAll(cs)|);
  }

  lemma EncodeAllPair(a: IE, b: IE)
    ensures EncodeAll([a, b]) == Encode(a) + Encode(b)
  {
    assert [a, b][1..] == [b];
    assert EncodeAll([b]) == Encode(b) + EncodeAll([]);
  }

  /** A Bearer Context's length field counts both children with their own
      four-octet prefixes: (4 + 1) + (4 + 22) = 31. */
  lemma BearerContextEncoding(ebi: byte, qos: IE)
    requires Encode(qos) == BearerQoSVector
    ensures Encode(NewBearerContext([NewEPSBearerID(ebi), qos]))
         == [0x5d, 0x00, 0x1f, 0x00] + [0x49, 0x00, 0x01, 0x00, ebi] + BearerQoSVector
  {
    var cs := [NewEPSBearerID(ebi), qos];
    LeafOctets(EPSBearerIDType, [ebi]);
    EncodeAllPair(NewEPSBearerID(ebi), qos);
    assert |EncodeAll(cs)| == 31;
    GroupedOctets(BearerContextType, cs);
  }

  /** The vector's Bearer QoS, as an IE whose encoding is known. */
  lemma VectorQoS() returns (qos: IE)
    ensures qos == VectorBearerQoS() && Encode(qos) == BearerQoSVector
  {
    BearerQoSEncoding();
    qos := VectorBearerQoS();
  }

  /** Both Bearer Context arguments pair an EPS Bearer ID with the vector's
      QoS. */
  lemma BearerContextArgs(x1: IE, x2: IE, qos: IE)
    requires qos == VectorBearerQoS()
    requires BearerContext1Arg == Some(x1) && BearerContext2Arg == Some(x2)
    ensures x1 == NewBearerContext([NewEPSBearerID(5), qos])
    ensures x2 == NewBearerContext([NewEPSBearerID(6), qos])
  {
  }

  // ----- Filing: argument order in, field order out -----

  lemma BuildDrop(c: CreateSessionRequest, args: seq<Option<IE>>, k: nat)
    requires k < |args| && args[k].Some?
    ensures Build(c, args[k..]) == Build(Place(c, args[k].value), args[k + 1..])
  {
    assert args[k..][1..] == args[k + 1..];
  }


  lemma PlaceSlot(c: CreateSessionRequest, x: IE, s: Slot)
    requires SlotOf(x) == Some(s)
    ensures Place(c, x) == c.(fields := c.fields[s := x])
  {
  }

  lemma PlaceBearer(c: CreateSessionRequest, x: IE)
    requires x.tag == BearerContextType && x.instance == 0
    ensures Place(c, x) == c.(bearerContextsToBeCreated := c.bearerContextsToBeCreated + [x])
  {
    assert SlotOf(x) == None;
  }

  /** Four IEs with their own fields, filed one after the other from
      position k of the arguments. */
  lemma FileFour(c: CreateSessionRequest, args: seq<Option<IE>>, k: nat,
                 a: IE, b: IE, d: IE, e: IE, sa: Slot, sb: Slot, sd: Slot, se: Slot)
    requires k + 4 <= |args|
    requires args[k] == Some(a) && args[k + 1] == Some(b) && args[k + 2] == Some(d) && args[k + 3] == Some(e)
    requires SlotOf(a) == Some(sa) && SlotOf(b) == Some(sb) && SlotOf(d) == Some(sd) && SlotOf(e) == Some(se)
    ensures Build(c, args[k..]) == Build(c.(fields := c.fields[sa := a][sb := b][sd := d][se := e]), args[k + 4..])
  {
    var c1 := c.(fields := c.fields[sa := a]);
    var c2 := c1.(fields := c1.fields[sb := b]);
    var c3 := c2.(fields := c2.fields[sd := d]);
    PlaceSlot(c, a, sa);
    BuildDrop(c, args, k);
    PlaceSlot(c1, b, sb);
    BuildDrop(c1, args, k + 1);
    PlaceSlot(c2, d, sd);
    BuildDrop(c2, args, k + 2);
    PlaceSlot(c3, e, se);
    BuildDrop(c3, args, k + 3);
  }

  /** Three IEs with their own fields, filed one after the other from
      position k of the arguments. */
  lemma FileThree(c: CreateSessionRequest, args: seq<Option<IE>>, k: nat,
                  a: IE, b: IE, d: IE, sa: Slot, sb: Slot, sd: Slot)
    requires k + 3 <= |args|
    requires args[k] == Some(a) && args[k + 1] == Some(b) && args[k + 2] == Some(d)
    requires SlotOf(a) == Some(sa) && SlotOf(b) == Some(sb) && SlotOf(d) == Some(sd)
    ensures Build(c, args[k..]) == Build(c.(fields := c.fields[sa := a][sb := b][sd := d]), args[k + 3..])
  {
    var c1 := c.(fields := c.fields[sa := a]);
    var c2 := c1.(fields := c1.fields[sb := b]);
    PlaceSlot(c, a, sa);
    BuildDrop(c, args, k);
    PlaceSlot(c1, b, sb);
    BuildDrop(c1, args, k + 1);
    PlaceSlot(c2, d, sd);
    BuildDrop(c2, args, k + 2);
  }

  /** Two Bearer Contexts with instance 0, from position k of the
      arguments, join the list of contexts to be created, in order. */
  lemma FileBearers(c: CreateSessionRequest, args: seq<Option<IE>>, k: nat, a: IE, b: IE)
    requires k + 2 <= |args| && args[k] == Some(a) && args[k + 1] == Some(b)
    requires a.tag == BearerContextType && a.instance == 0
    requires b.tag == BearerContextType && b.instance == 0
    ensures Build(c, args[k..])
         == Build(c.(bearerContextsToBeCreated := c.bearerContextsToBeCreated + [a, b]), args[k + 2..])
  {
    var c1 := c.(bearerContextsToBeCreated := c.bearerContextsToBeCreated + [a]);
    PlaceBearer(c, a);
    BuildDrop(c, args, k);
    PlaceBearer(c1, b);
    BuildDrop(c1, args, k + 1);
    assert c.bearerContextsToBeCreated + [a] + [b] == c.bearerContextsToBeCreated + [a, b];
  }

  /** Every named field set, in the order the arguments are filed. */
  function FieldMap(imsi: IE, msisdn: IE, mei: IE, uli: IE, sn: IE, rat: IE, ind: IE, s11: IE,
                    s5s8: IE, apn: IE, sel: IE, pdn: IE, paa: IE, apnr: IE, ambr: IE): map<Slot, IE>
  {
    map[][IMSI := imsi][MSISDN := msisdn][APN := apn][SenderFTEIDC := s11][PGWS5S8FTEIDC := s5s8]
         [PDNType := pdn][AMBR := ambr][IndicationFlags := ind][MEI := mei][ServingNetwork := sn]
         [PAA := paa][APNRestriction := apnr][ULI := uli][RATType := rat][SelectionMode := sel]
  }

  lemma FieldMapFirst(imsi: IE, msisdn: IE, mei: IE, uli: IE, sn: IE, rat: IE, ind: IE, s11: IE,
                   s5s8: IE, apn: IE, sel: IE, pdn: IE, paa: IE, apnr: IE, ambr: IE)
    ensures forall i :: 0 <= i < 5 ==> (SlotOrder[i] in FieldMap(imsi, msisdn, mei, uli, sn, rat, ind, s11, s5s8, apn, sel, pdn, paa, apnr, ambr)
      && FieldMap(imsi, msisdn, mei, uli, sn, rat, ind, s11, s5s8, apn, sel, pdn, paa, apnr, ambr)[SlotOrder[i]] == [imsi, msisdn, mei, uli, sn, rat, ind, s11, s5s8, apn, sel, pdn, paa, apnr, ambr][i])
  {
  }

  lemma FieldMapMiddle(imsi: IE, msisdn: IE, mei: IE, uli: IE, sn: IE, rat: IE, ind: IE, s11: IE,
                   s5s8: IE, apn: IE, sel: IE, pdn: IE, paa: IE, apnr: IE, ambr: IE)
    ensures forall i :: 5 <= i < 10 ==> (SlotOrder[i] in FieldMap(imsi, msisdn, mei, uli, sn, rat, ind, s11, s5s8, apn, sel, pdn, paa, apnr, ambr)
      && FieldMap(imsi, msisdn, mei, uli, sn, rat, ind, s11, s5s8, apn, sel, pdn, paa, apnr, ambr)[SlotOrder[i]] == [imsi, msisdn, mei, uli, sn, rat, ind, s11, s5s8, apn, sel, pdn, paa, apnr, ambr][i])
  {
  }

  lemma FieldMapLast(imsi: IE, msisdn: IE, mei: IE, uli: IE, sn: IE, rat: IE, ind: IE, s11: IE,
                   s5s8: IE, apn: IE, sel: IE, pdn: IE, paa: IE, apnr: IE, ambr: IE)
    ensures forall i :: 10 <= i < 15 ==> (SlotOrder[i] in FieldMap(imsi, msisdn, mei, uli, sn, rat, ind, s11, s5s8, apn, sel, pdn, paa, apnr, ambr)
      && FieldMap(imsi, msisdn, mei, uli, sn, rat, ind, s11, s5s8, apn, sel, pdn, paa, apnr, ambr)[SlotOrder[i]] == [imsi, msisdn, mei, uli, sn, rat, ind, s11, s5s8, apn, sel, pdn, paa, apnr, ambr][i])
  {
  }

  /** With every named field set, the fields come out in field order. */
  lemma PresentInOrder(imsi: IE, msisdn: IE, mei: IE, uli: IE, sn: IE, rat: IE, ind: IE, s11: IE,
                   s5s8: IE, apn: IE, sel: IE, pdn: IE, paa: IE, apnr: IE, ambr: IE)
    ensures Present(SlotOrder, FieldMap(imsi, msisdn, mei, uli, sn, rat, ind, s11, s5s8, apn, sel, pdn, paa, apnr, ambr))
         == [imsi, msisdn, mei, uli, sn, rat, ind, s11, s5s8, apn, sel, pdn, paa, apnr, ambr]
  {
    FieldMapFirst(imsi, msisdn, mei, uli, sn, rat, ind, s11, s5s8, apn, sel, pdn, paa, apnr, ambr);
    FieldMapMiddle(imsi, msisdn, mei, uli, sn, rat, ind, s11, s5s8, apn, sel, pdn, paa, apnr, ambr);
    FieldMapLast(imsi, msisdn, mei, uli, sn, rat, ind, s11, s5s8, apn, sel, pdn, paa, apnr, ambr);
    PresentAll(SlotOrder, FieldMap(imsi, msisdn, mei, uli, sn, rat, ind, s11, s5s8, apn, sel, pdn, paa, apnr, ambr));
  }

  /** The fields the vector's kinds of IE are filed under. */
  lemma ArgumentSlots(imsi: IE, msisdn: IE, apn: IE, s11: IE, s5s8: IE, pdn: IE, ambr: IE,
                      ind: IE, mei: IE, sn: IE, paa: IE, apnr: IE, uli: IE, rat: IE, sel: IE)
    requires imsi.tag == IMSIType && msisdn.tag == MSISDNType && apn.tag == AccessPointNameType
    requires s11.tag == FullyQualifiedTEIDType && s11.instance == 0
    requires s5s8.tag == FullyQualifiedTEIDType && s5s8.instance == 1
    requires pdn.tag == PDNTypeType && ambr.tag == AggregateMaximumBitRateType
    requires ind.tag == IndicationType
    requires mei.tag == MobileEquipmentIdentityType && sn.tag == ServingNetworkType
    requires paa.tag == PDNAddressAllocationType && apnr.tag == APNRestrictionType
    requires uli.tag == UserLocationInformationType && rat.tag == RATTypeType
    requires sel.tag == SelectionModeType
    ensures SlotOf(imsi) == Some(IMSI) && SlotOf(msisdn) == Some(MSISDN) && SlotOf(apn) == Some(APN)
    ensures SlotOf(s11) == Some(SenderFTEIDC) && SlotOf(s5s8) == Some(PGWS5S8FTEIDC)
    ensures SlotOf(pdn) == Some(PDNType) && SlotOf(ambr) == Some(AMBR) && SlotOf(ind) == Some(IndicationFlags)
    ensures SlotOf(mei) == Some(MEI) && SlotOf(sn) == Some(ServingNetwork) && SlotOf(paa) == Some(PAA)
    ensures SlotOf(apnr) == Some(APNRestriction) && SlotOf(uli) == Some(ULI) && SlotOf(rat) == Some(RATType)
    ensures SlotOf(sel) == Some(SelectionMode)
  {
  }

  /** Seventeen arguments of the vector's kinds, in the vector's argument
      order, filed into any message. */
  lemma FileChain(c: CreateSessionRequest, args: seq<Option<IE>>,
                  imsi: IE, msisdn: IE, apn: IE, s11: IE, s5s8: IE, pdn: IE, ambr: IE,
                         ind: IE, bc1: IE, bc2: IE, mei: IE, sn: IE, paa: IE, apnr: IE,
                         uli: IE, rat: IE, sel: IE)
    requires |args| == 17 && c.fields == map[] && c.bearerContextsToBeCreated == []
    requires args[0] == Some(imsi) && args[1] == Some(msisdn) && args[2] == Some(apn) && args[3] == Some(s11)
    requires args[4] == Some(s5s8) && args[5] == Some(pdn) && args[6] == Some(ambr) && args[7] == Some(ind)
    requires args[8] == Some(bc1) && args[9] == Some(bc2)
    requires args[10] == Some(mei) && args[11] == Some(sn) && args[12] == Some(paa) && args[13] == Some(apnr)
    requires args[14] == Some(uli) && args[15] == Some(rat) && args[16] == Some(sel)
    requires SlotOf(imsi) == Some(IMSI) && SlotOf(msisdn) == Some(MSISDN) && SlotOf(apn) == Some(APN)
    requires SlotOf(s11) == Some(SenderFTEIDC) && SlotOf(s5s8) == Some(PGWS5S8FTEIDC)
    requires SlotOf(pdn) == Some(PDNType) && SlotOf(ambr) == Some(AMBR) && SlotOf(ind) == Some(IndicationFlags)
    requires bc1.tag == BearerContextType && bc1.instance == 0
    requires bc2.tag == BearerContextType && bc2.instance == 0
    requires SlotOf(mei) == Some(MEI) && SlotOf(sn) == Some(ServingNetwork) && SlotOf(paa) == Some(PAA)
    requires SlotOf(apnr) == Some(APNRestriction) && SlotOf(uli) == Some(ULI) && SlotOf(rat) == Some(RATType)
    requires SlotOf(sel) == Some(SelectionMode)
    ensures Build(c, args)
         == c.(fields := FieldMap(imsi, msisdn, mei, uli, sn, rat, ind, s11, s5s8, apn, sel, pdn, paa, apnr, ambr),
               bearerContextsToBeCreated := [bc1, bc2])
  {
    var c1 := c.(fields := c.fields[IMSI := imsi][MSISDN := msisdn][APN := apn][SenderFTEIDC := s11]);
    var c2 := c1.(fields := c1.fields[PGWS5S8FTEIDC := s5s8][PDNType := pdn][AMBR := ambr][IndicationFlags := ind]);
    var c3 := c2.(bearerContextsToBeCreated := c2.bearerContextsToBeCreated + [bc1, bc2]);
    var c4 := c3.(fields := c3.fields[MEI := mei][ServingNetwork := sn][PAA := paa][APNRestriction := apnr]);
    assert args[0..] == args;
    FileFour(c, args, 0, imsi, msisdn, apn, s11, IMSI, MSISDN, APN, SenderFTEIDC);
    FileFour(c1, args, 4, s5s8, pdn, ambr, ind, PGWS5S8FTEIDC, PDNType, AMBR, IndicationFlags);
    FileBearers(c2, args, 8, bc1, bc2);
    FileFour(c3, args, 10, mei, sn, paa, apnr, MEI, ServingNetwork, PAA, APNRestriction);
    FileThree(c4, args, 14, uli, rat, sel, ULI, RATType, SelectionMode);
    assert args[17..] == [];
    assert [] + [bc1, bc2] == [bc1, bc2];
  }

  /** Seventeen IEs of the kinds the vector's arguments are, given in the
      vector's argument order, come out in the message's field order. */
  lemma {:induction false} FileInFieldOrder(teid: uint32, sequence: uint32, args: seq<Option<IE>>,
                         imsi: IE, msisdn: IE, apn: IE, s11: IE, s5s8: IE, pdn: IE, ambr: IE,
                         ind: IE, bc1: IE, bc2: IE, mei: IE, sn: IE, paa: IE, apnr: IE,
                         uli: IE, rat: IE, sel: IE)
    requires |args| == 17
    requires args[0] == Some(imsi) && args[1] == Some(msisdn) && args[2] == Some(apn) && args[3] == Some(s11)
    requires args[4] == Some(s5s8) && args[5] == Some(pdn) && args[6] == Some(ambr) && args[7] == Some(ind)
    requires args[8] == Some(bc1) && args[9] == Some(bc2)
    requires args[10] == Some(mei) && args[11] == Some(sn) && args[12] == Some(paa) && args[13] == Some(apnr)
    requires args[14] == Some(uli) && args[15] == Some(rat) && args[16] == Some(sel)
    requires imsi.tag == IMSIType && msisdn.tag == MSISDNType && apn.tag == AccessPointNameType
    requires s11.tag == FullyQualifiedTEIDType && s11.instance == 0
    requires s5s8.tag == FullyQualifiedTEIDType && s5s8.instance == 1
    requires pdn.tag == PDNTypeType && ambr.tag == AggregateMaximumBitRateType
    requires ind.tag == IndicationType
    requires bc1.tag == BearerContextType && bc1.instance == 0
    requires bc2.tag == BearerContextType && bc2.instance == 0
    requires mei.tag == MobileEquipmentIdentityType && sn.tag == ServingNetworkType
    requires paa.tag == PDNAddressAllocationType && apnr.tag == APNRestrictionType
    requires uli.tag == UserLocationInformationType && rat.tag == RATTypeType
    requires sel.tag == SelectionModeType
    ensures Fields(Build(EmptyRequest(teid, sequence), args))
         == [imsi, msisdn, mei, uli, sn, rat, ind, s11] + [s5s8, apn, sel, pdn, paa, apnr, ambr, bc1, bc2]
  {
    ArgumentSlots(imsi, msisdn, apn, s11, s5s8, pdn, ambr, ind, mei, sn, paa, apnr, uli, rat, sel);
    FileChain(EmptyRequest(teid, sequence), args, imsi, msisdn, apn, s11, s5s8, pdn, ambr, ind, bc1, bc2,
              mei, sn, paa, apnr, uli, rat, sel);
    PresentInOrder(imsi, msisdn, mei, uli, sn, rat, ind, s11, s5s8, apn, sel, pdn, paa, apnr, ambr);
  }

  // ----- The whole message -----

  /** IEs that encode one by one to the parts encode together to the
      parts one after the other. */
  lemma {:induction false} EncodeAllConcat(ies: seq<IE>, parts: seq<seq<byte>>)
    requires |ies| == |parts|
    requires forall i :: 0 <= i < |ies| ==> Encode(ies[i]) == parts[i]
    ensures EncodeAll(ies) == Concat(parts)
  {
    if |ies| > 0 {
      EncodeAllConcat(ies[1..], parts[1..]);
    }
  }

  /** IEs that encode one by one to the vector's parts. */
  predicate EncodesToParts(ies: seq<IE>) {
    |ies| == |BodyParts| && forall i :: 0 <= i < |ies| ==> Encode(ies[i]) == BodyParts[i]
  }

  /** Seventeen IEs that encode one by one to the vector's parts. */
  lemma PartsOneByOne(ies: seq<IE>)
    requires |ies| == 17
    requires Encode(ies[0]) == ImsiVector && Encode(ies[1]) == MsisdnVector && Encode(ies[2]) == MeiVector
    requires Encode(ies[3]) == UliVector && Encode(ies[4]) == ServingNetworkVector && Encode(ies[5]) == RatTypeVector
    requires Encode(ies[6]) == IndicationVector && Encode(ies[7]) == FteidS11Vector && Encode(ies[8]) == FteidS5S8Vector
    requires Encode(ies[9]) == ApnVector && Encode(ies[10]) == SelectionModeVector && Encode(ies[11]) == PdnTypeVector
    requires Encode(ies[12]) == PaaVector && Encode(ies[13]) == ApnRestrictionVector && Encode(ies[14]) == AmbrVector
    requires Encode(ies[15]) == BearerContext1Vector && Encode(ies[16]) == BearerContext2Vector
    ensures EncodesToParts(ies)
  {
  }

  /** Whatever order the arguments come in, the serialised message is the
      header the constructor makes, then the IEs in field order, then the
      Bearer Contexts. */
  lemma MarshalInFieldOrder(teid: uint32, sequence: uint32, args: seq<Option<IE>>,
                            imsi: IE, msisdn: IE, apn: IE, s11: IE, s5s8: IE, pdn: IE, ambr: IE,
                            ind: IE, bc1: IE, bc2: IE, mei: IE, sn: IE, paa: IE, apnr: IE,
                            uli: IE, rat: IE, sel: IE)
    requires |args| == 17
    requires args[0] == Some(imsi) && args[1] == Some(msisdn) && args[2] == Some(apn) && args[3] == Some(s11)
    requires args[4] == Some(s5s8) && args[5] == Some(pdn) && args[6] == Some(ambr) && args[7] == Some(ind)
    requires args[8] == Some(bc1) && args[9] == Some(bc2)
    requires args[10] == Some(mei) && args[11] == Some(sn) && args[12] == Some(paa) && args[13] == Some(apnr)
    requires args[14] == Some(uli) && args[15] == Some(rat) && args[16] == Some(sel)
    requires imsi.tag == IMSIType && msisdn.tag == MSISDNType && apn.tag == AccessPointNameType
    requires s11.tag == FullyQualifiedTEIDType && s11.instance == 0
    requires s5s8.tag == FullyQualifiedTEIDType && s5s8.instance == 1
    requires pdn.tag == PDNTypeType && ambr.tag == AggregateMaximumBitRateType
    requires ind.tag == IndicationType
    requires bc1.tag == BearerContextType && bc1.instance == 0
    requires bc2.tag == BearerContextType && bc2.instance == 0
    requires mei.tag == MobileEquipmentIdentityType && sn.tag == ServingNetworkType
    requires paa.tag == PDNAddressAllocationType && apnr.tag == APNRestrictionType
    requires uli.tag == UserLocationInformationType && rat.tag == RATTypeType
    requires sel.tag == SelectionModeType
    ensures var body := EncodeAll([imsi, msisdn, mei, uli, sn, rat, ind, s11] + [s5s8, apn, sel, pdn, paa, apnr, ambr, bc1, bc2]);
      MarshalCreateSessionRequest(NewCreateSessionRequest(teid, sequence, args))
         == HeaderOctets(SetLength(EmptyRequest(teid, sequence).header, body)) + body
  {
    var e := EmptyRequest(teid, sequence);
    var c := Build(e, args);
    FileInFieldOrder(teid, sequence, args, imsi, msisdn, apn, s11, s5s8, pdn, ambr, ind, bc1, bc2,
                     mei, sn, paa, apnr, uli, rat, sel);
    var body := EncodeAll(Fields(c));
    BuildHeader(e, args);
    var c' := SetRequestLength(c);
    assert Fields(c') == Fields(c);
    assert SetLength(c'.header, body) == SetLength(e.header, body);
  }

  /** The header octets for a 229-octet body. */
  lemma HeaderOctetsVector(body: seq<byte>)
    requires |body| == 229
    ensures HeaderOctets(SetLength(EmptyRequest(0x11223344, 1).header, body)) == HeaderVector
  {
    EmptyRequestHeader(0x11223344, 1);
    assert UintBE(0xed, 2) == [0x00, 0xed];
    assert UintBE(0x11223344, 4) == [0x11, 0x22, 0x33, 0x44];
    assert UintBE(1, 3) == [0x00, 0x00, 0x01];
  }

  lemma LengthsStep(parts: seq<seq<byte>>, k: nat)
    requires k < |parts|
    ensures Lengths(parts[k..]) == |parts[k]| + Lengths(parts[k + 1..])
  {
    assert parts[k..][1..] == parts[k + 1..];
  }

  /** Seventeen parts' lengths, added up. */
  lemma LengthsSeventeen(p: seq<seq<byte>>)
    requires |p| == 17
    ensures Lengths(p) == |p[0]| + |p[1]| + |p[2]| + |p[3]| + |p[4]| + |p[5]| + |p[6]| + |p[7]| + |p[8]|
                        + |p[9]| + |p[10]| + |p[11]| + |p[12]| + |p[13]| + |p[14]| + |p[15]| + |p[16]|
  {
    assert p[0..] == p;
    LengthsStep(p, 0); LengthsStep(p, 1); LengthsStep(p, 2); LengthsStep(p, 3);
    LengthsStep(p, 4); LengthsStep(p, 5); LengthsStep(p, 6); LengthsStep(p, 7);
    LengthsStep(p, 8); LengthsStep(p, 9); LengthsStep(p, 10); LengthsStep(p, 11);
    LengthsStep(p, 12); LengthsStep(p, 13); LengthsStep(p, 14); LengthsStep(p, 15);
    LengthsStep(p, 16);
    assert p[17..] == [];
  }

  /** 12 + 12 + 12 + 17 + 7 + 5 + 11 + 13 + 13 + 21 + 5 + 5 + 9 + 5 + 12
      + 35 + 35 octets. */
  lemma BodyVectorLength()
    ensures |BodyVector| == 229
  {
    LengthsSeventeen(BodyParts);
  }

  /** Seventeen IEs in the vector's argument order that encode one by one
      to the vector's parts serialise, with TEID 0x11223344 and sequence
      number 1, to exactly the vector's octets. */
  lemma MarshalFromParts(args: seq<Option<IE>>,
                         imsi: IE, msisdn: IE, apn: IE, s11: IE, s5s8: IE, pdn: IE, ambr: IE,
                         ind: IE, bc1: IE, bc2: IE, mei: IE, sn: IE, paa: IE, apnr: IE,
                         uli: IE, rat: IE, sel: IE)
    requires |args| == 17
    requires args[0] == Some(imsi) && args[1] == Some(msisdn) && args[2] == Some(apn) && args[3] == Some(s11)
    requires args[4] == Some(s5s8) && args[5] == Some(pdn) && args[6] == Some(ambr) && args[7] == Some(ind)
    requires args[8] == Some(bc1) && args[9] == Some(bc2)
    requires args[10] == Some(mei) && args[11] == Some(sn) && args[12] == Some(paa) && args[13] == Some(apnr)
    requires args[14] == Some(uli) && args[15] == Some(rat) && args[16] == Some(sel)
    requires imsi.tag == IMSIType && msisdn.tag == MSISDNType && apn.tag == AccessPointNameType
    requires s11.tag == FullyQualifiedTEIDType && s11.instance == 0
    requires s5s8.tag == FullyQualifiedTEIDType && s5s8.instance == 1
    requires pdn.tag == PDNTypeType && ambr.tag == AggregateMaximumBitRateType
    requires ind.tag == IndicationType
    requires bc1.tag == BearerContextType && bc1.instance == 0
    requires bc2.tag == BearerContextType && bc2.instance == 0
    requires mei.tag == MobileEquipmentIdentityType && sn.tag == ServingNetworkType
    requires paa.tag == PDNAddressAllocationType && apnr.tag == APNRestrictionType
    requires uli.tag == UserLocationInformationType && rat.tag == RATTypeType
    requires sel.tag == SelectionModeType
    requires EncodesToParts([imsi, msisdn, mei, uli, sn, rat, ind, s11] + [s5s8, apn, sel, pdn, paa, apnr, ambr, bc1, bc2])
    ensures MarshalCreateSessionRequest(NewCreateSessionRequest(0x11223344, 1, args)) == SerializedVector
  {
    MarshalInFieldOrder(0x11223344, 1, args, imsi, msisdn, apn, s11, s5s8, pdn, ambr, ind, bc1, bc2,
                        mei, sn, paa, apnr, uli, rat, sel);
    var ies := [imsi, msisdn, mei, uli, sn, rat, ind, s11] + [s5s8, apn, sel, pdn, paa, apnr, ambr, bc1, bc2];
    EncodeAllConcat(ies, BodyParts);
    BodyVectorLength();
    HeaderOctetsVector(EncodeAll(ies));
  }

  /** Seventeen IEs as a sequence, one by one. */
  lemma Collect(imsi: IE, msisdn: IE, apn: IE, s11: IE, s5s8: IE, pdn: IE, ambr: IE, ind: IE, bc1: IE,
                  bc2: IE, mei: IE, sn: IE, paa: IE, apnr: IE, uli: IE, rat: IE, sel: IE) returns (ies: seq<IE>)
    ensures |ies| == 17
    ensures ies[0] == imsi && ies[1] == msisdn && ies[2] == apn && ies[3] == s11 && ies[4] == s5s8
    ensures ies[5] == pdn && ies[6] == ambr && ies[7] == ind && ies[8] == bc1 && ies[9] == bc2
    ensures ies[10] == mei && ies[11] == sn && ies[12] == paa && ies[13] == apnr && ies[14] == uli
    ensures ies[15] == rat && ies[16] == sel
  {
    ies := [imsi, msisdn, apn, s11, s5s8, pdn, ambr, ind] + [bc1, bc2, mei, sn, paa, apnr, uli, rat, sel];
  }

  /** A seventeen-argument display whose arguments each hold one IE
      holds those IEs position by position. */
  lemma DisplayHolds(args: seq<Option<IE>>,
                       a0: Option<IE>, a1: Option<IE>, a2: Option<IE>, a3: Option<IE>, a4: Option<IE>, a5: Option<IE>,
                       a6: Option<IE>, a7: Option<IE>, a8: Option<IE>, a9: Option<IE>, a10: Option<IE>, a11: Option<IE>,
                       a12: Option<IE>, a13: Option<IE>, a14: Option<IE>, a15: Option<IE>, a16: Option<IE>,
                       ies: seq<IE>)
    requires args == [a0, a1, a2, a3, a4, a5, a6, a7] + [a8, a9, a10, a11, a12, a13, a14, a15, a16]
    requires |ies| == 17
    requires a0 == Some(ies[0]) && a1 == Some(ies[1]) && a2 == Some(ies[2]) && a3 == Some(ies[3])
    requires a4 == Some(ies[4]) && a5 == Some(ies[5]) && a6 == Some(ies[6]) && a7 == Some(ies[7])
    requires a8 == Some(ies[8]) && a9 == Some(ies[9]) && a10 == Some(ies[10]) && a11 == Some(ies[11])
    requires a12 == Some(ies[12]) && a13 == Some(ies[13]) && a14 == Some(ies[14]) && a15 == Some(ies[15])
    requires a16 == Some(ies[16])
    ensures forall i :: 0 <= i < 17 ==> args[i] == Some(ies[i])
  {
  }

  /** Seventeen IEs in argument order with the vector's types, instances
      and octets. */
  predicate VectorShaped(ies: seq<IE>, qos: IE) {
    && |ies| == 17
    && ies[0].tag == IMSIType && Encode(ies[0]) == ImsiVector
    && ies[1].tag == MSISDNType && Encode(ies[1]) == MsisdnVector
    && ies[2].tag == AccessPointNameType && Encode(ies[2]) == ApnVector
    && ies[3].tag == FullyQualifiedTEIDType && ies[3].instance == 0 && Encode(ies[3]) == FteidS11Vector
    && ies[4].tag == FullyQualifiedTEIDType && ies[4].instance == 1 && Encode(ies[4]) == FteidS5S8Vector
    && ies[5].tag == PDNTypeType && Encode(ies[5]) == PdnTypeVector
    && ies[6].tag == AggregateMaximumBitRateType && Encode(ies[6]) == AmbrVector
    && ies[7].tag == IndicationType && Encode(ies[7]) == IndicationVector
    && ies[8] == NewBearerContext([NewEPSBearerID(5), qos])
    && ies[9] == NewBearerContext([NewEPSBearerID(6), qos])
    && Encode(qos) == BearerQoSVector
    && ies[10].tag == MobileEquipmentIdentityType && Encode(ies[10]) == MeiVector
    && ies[11].tag == ServingNetworkType && Encode(ies[11]) == ServingNetworkVector
    && ies[12].tag == PDNAddressAllocationType && Encode(ies[12]) == PaaVector
    && ies[13].tag == APNRestrictionType && Encode(ies[13]) == ApnRestrictionVector
    && ies[14].tag == UserLocationInformationType && Encode(ies[14]) == UliVector
    && ies[15].tag == RATTypeType && Encode(ies[15]) == RatTypeVector
    && ies[16].tag == SelectionModeType && Encode(ies[16]) == SelectionModeVector
  }

  /** Any arguments holding IEs shaped like the vector's serialise to the
      vector's octets. */
  lemma MarshalFromShaped(args: seq<Option<IE>>, ies: seq<IE>, qos: IE)
    requires |args| == 17 && |ies| == 17 && forall i :: 0 <= i < 17 ==> args[i] == Some(ies[i])
    requires VectorShaped(ies, qos)
    ensures MarshalCreateSessionRequest(NewCreateSessionRequest(0x11223344, 1, args)) == SerializedVector
  {
    BearerContextEncoding(5, qos);
    BearerContextEncoding(6, qos);
    PartsOneByOne([ies[0], ies[1], ies[10], ies[14], ies[11], ies[15], ies[7], ies[3]] +
                  [ies[4], ies[2], ies[16], ies[5], ies[12], ies[13], ies[6], ies[8], ies[9]]);
    MarshalFromParts(args, ies[0], ies[1], ies[2], ies[3], ies[4], ies[5], ies[6], ies[7], ies[8], ies[9],
                     ies[10], ies[11], ies[12], ies[13], ies[14], ies[15], ies[16]);
  }

  /** The arguments that could fail are present: every digit string is
      decimal and the PLMN encodes. */
  lemma ArgumentsPresent()
    ensures ImsiArg.Some? && MsisdnArg.Some? && MEIArg.Some? && ServingNetworkArg.Some? && ULIArg.Some?
  {
    ImsiIsDigits();
    MsisdnIsDigits();
    VectorPLMN();
  }

  /** The IEs the vector's arguments hold, in argument order. */
  lemma ArgumentIEs() returns (ies: seq<IE>)
    ensures |ies| == 17 && forall i :: 0 <= i < 17 ==> VectorArgs[i] == Some(ies[i])
    ensures ImsiArg == Some(ies[0]) && MsisdnArg == Some(ies[1]) && ApnArg == Some(ies[2])
    ensures SenderFTEIDArg == Some(ies[3]) && PGWFTEIDArg == Some(ies[4]) && PDNTypeArg == Some(ies[5])
    ensures AMBRArg == Some(ies[6]) && IndicationArg == Some(ies[7]) && BearerContext1Arg == Some(ies[8])
    ensures BearerContext2Arg == Some(ies[9]) && MEIArg == Some(ies[10]) && ServingNetworkArg == Some(ies[11])
    ensures PAAArg == Some(ies[12]) && APNRestrictionArg == Some(ies[13]) && ULIArg == Some(ies[14])
    ensures RATTypeArg == Some(ies[15]) && SelectionModeArg == Some(ies[16])
  {
    ArgumentsPresent();
    ies := Collect(ImsiArg.value, MsisdnArg.value, ApnArg.value, SenderFTEIDArg.value, PGWFTEIDArg.value,
                   PDNTypeArg.value, AMBRArg.value, IndicationArg.value, BearerContext1Arg.value,
                   BearerContext2Arg.value, MEIArg.value, ServingNetworkArg.value, PAAArg.value,
                   APNRestrictionArg.value, ULIArg.value, RATTypeArg.value, SelectionModeArg.value);
    DisplayHolds(VectorArgs, ImsiArg, MsisdnArg, ApnArg, SenderFTEIDArg, PGWFTEIDArg, PDNTypeArg, AMBRArg,
                 IndicationArg, BearerContext1Arg, BearerContext2Arg, MEIArg, ServingNetworkArg, PAAArg,
                 APNRestrictionArg, ULIArg, RATTypeArg, SelectionModeArg, ies);
  }

  /** The subscriber and access point arguments hold the vector's IEs. */
  lemma ShapedIdentity(ies: seq<IE>)
    requires |ies| == 17 && ImsiArg == Some(ies[0]) && MsisdnArg == Some(ies[1]) && ApnArg == Some(ies[2])
    requires MEIArg == Some(ies[10])
    ensures ies[0].tag == IMSIType && Encode(ies[0]) == ImsiVector
    ensures ies[1].tag == MSISDNType && Encode(ies[1]) == MsisdnVector
    ensures ies[2].tag == AccessPointNameType && Encode(ies[2]) == ApnVector
    ensures ies[10].tag == MobileEquipmentIdentityType && Encode(ies[10]) == MeiVector
  {
    var imsi := ImsiArgEncoding();
    var msisdn := MsisdnArgEncoding();
    var apn := ApnArgEncoding();
    var mei := MEIArgEncoding();
  }

  /** The two F-TEID arguments hold the vector's IEs. */
  lemma ShapedTunnels(ies: seq<IE>)
    requires |ies| == 17 && SenderFTEIDArg == Some(ies[3]) && PGWFTEIDArg == Some(ies[4])
    ensures ies[3].tag == FullyQualifiedTEIDType && ies[3].instance == 0 && Encode(ies[3]) == FteidS11Vector
    ensures ies[4].tag == FullyQualifiedTEIDType && ies[4].instance == 1 && Encode(ies[4]) == FteidS5S8Vector
  {
    var s11 := SenderFTEIDArgEncoding();
    var s5s8 := PGWFTEIDArgEncoding();
  }

  /** The PDN connection arguments hold the vector's IEs. */
  lemma ShapedConnection(ies: seq<IE>)
    requires |ies| == 17 && PDNTypeArg == Some(ies[5]) && AMBRArg == Some(ies[6])
    requires IndicationArg == Some(ies[7]) && PAAArg == Some(ies[12]) && APNRestrictionArg == Some(ies[13])
    ensures ies[5].tag == PDNTypeType && Encode(ies[5]) == PdnTypeVector
    ensures ies[6].tag == AggregateMaximumBitRateType && Encode(ies[6]) == AmbrVector
    ensures ies[7].tag == IndicationType && Encode(ies[7]) == IndicationVector
    ensures ies[12].tag == PDNAddressAllocationType && Encode(ies[12]) == PaaVector
    ensures ies[13].tag == APNRestrictionType && Encode(ies[13]) == ApnRestrictionVector
  {
    var pdn := PDNTypeArgEncoding();
    var ambr := AMBRArgEncoding();
    var ind := IndicationArgEncoding();
    var paa := PAAArgEncoding();
    var apnr := APNRestrictionArgEncoding();
  }

  /** The location and selection arguments hold the vector's IEs. */
  lemma ShapedLocation(ies: seq<IE>)
    requires |ies| == 17 && ServingNetworkArg == Some(ies[11]) && ULIArg == Some(ies[14])
    requires RATTypeArg == Some(ies[15]) && SelectionModeArg == Some(ies[16])
    ensures ies[11].tag == ServingNetworkType && Encode(ies[11]) == ServingNetworkVector
    ensures ies[14].tag == UserLocationInformationType && Encode(ies[14]) == UliVector
    ensures ies[15].tag == RATTypeType && Encode(ies[15]) == RatTypeVector
    ensures ies[16].tag == SelectionModeType && Encode(ies[16]) == SelectionModeVector
  {
    var sn := ServingNetworkArgEncoding();
    var uli := ULIArgEncoding();
    var rat := RATTypeArgEncoding();
    var sel := SelectionModeArgEncoding();
  }

  /** The IEs the vector's arguments hold are shaped like the vector's. */
  lemma ArgumentsShaped() returns (ies: seq<IE>, qos: IE)
    ensures |ies| == 17 && forall i :: 0 <= i < 17 ==> VectorArgs[i] == Some(ies[i])
    ensures VectorShaped(ies, qos)
  {
    ies := ArgumentIEs();
    qos := VectorQoS();
    BearerContextArgs(ies[8], ies[9], qos);
    ShapedIdentity(ies);
    ShapedTunnels(ies);
    ShapedConnection(ies);
    ShapedLocation(ies);
  }

  /** The constructor, given the vector's arguments with TEID 0x11223344
      and sequence number 1, serialises to exactly the vector's octets. */
  lemma MarshalsToVector()
    ensures MarshalCreateSessionRequest(NewCreateSessionRequest(0x11223344, 1, VectorArgs)) == SerializedVector
  {
    var ies, qos := ArgumentsShaped();
    MarshalFromShaped(VectorArgs, ies, qos);
  }
}

=== FILE: gtpv1_generic.dfy ===
/** The GTPv1 generic message: the fallback shape for message types the
    registry does not know, a header followed by an ordered list of IEs in
    which nil entries are allowed and skipped. The header layout follows
    section 6 of 3GPP TS 29.060; the IE codec and both parsers are outside
    this model and are taken as parameters that keep their length promises. */
module V1Generic {
  import opened Bytes
  import opened Wrappers

  /** The flags octet a generic message is created with: version 1, protocol
      type GTP, sequence number present. */
  const GenericFlags: byte := 0x32

  /** The mandatory part of the header, which the length field leaves out. */
  const MandatoryLen: nat := 8

  /** A GTPv1 header without its payload. The sequence number, N-PDU number
      and next extension header type are only written when a flag asks for
      them. */
  datatype Header = Header(flags: byte, msgType: byte, length: uint16, teid: uint32,
                           sequence: uint16, npdu: byte, nextExtension: byte)

  /** Any of the extension header, sequence number or N-PDU number flags
      (the three low bits) brings in the four optional octets. */
  predicate HasOptionalFields(h: Header) {
    h.flags % 8 != 0
  }

  /** Octets before the payload. Extension headers are not modelled. */
  function PrefixLen(h: Header): (n: nat)
    ensures n == MandatoryLen || n == MandatoryLen + 4
  {
    if HasOptionalFields(h) then 12 else 8
  }

  /** The header octets: flags, type, length, TEID, then the optional
      fields when present. */
  function HeaderOctets(h: Header): (r: seq<byte>)
    ensures |r| == PrefixLen(h)
    ensures r[0] == h.flags && r[1] == h.msgType
    ensures r[2..4] == UintBE(h.length, 2) && r[4..8] == UintBE(h.teid, 4)
    ensures HasOptionalFields(h) ==>
              r[8..10] == UintBE(h.sequence, 2) && r[10] == h.npdu && r[11] == h.nextExtension
  {
    [h.flags, h.msgType] + UintBE(h.length, 2) + UintBE(h.teid, 4)
      + (if HasOptionalFields(h) then UintBE(h.sequence, 2) + [h.npdu, h.nextExtension] else [])
  }

  /** A header as the generic constructor asks for it. The length is left
      at zero: the constructor recomputes it at once. */
  function NewHeader(flags: byte, msgType: byte, teid: uint32, sequence: uint16): Header {
    Header(flags, msgType, 0, teid, sequence, 0, 0)
  }

  /** The parts of the codec this model does not define: an IE's declared
      size and its serialisation, the header parser (a header and the
      payload it delimits) and the multi-IE parser. */
  datatype Codec<!I> = Codec(
    size: I -> nat,
    encode: I -> Result<seq<byte>>,
    parseHeader: seq<byte> -> Result<(Header, seq<byte>)>,
    parseIEs: seq<byte> -> Result<seq<I>>)

  /** An IE codec keeps its size promise: a successful serialisation is as
      long as the IE says it is. */
  ghost predicate Sound<I(!new)>(c: Codec<I>) {
    forall ie :: c.encode(ie).Success? ==> |c.encode(ie).value| == c.size(ie)
  }

  datatype Generic<I> = Generic(header: Header, ies: seq<Option<I>>)

  /** The size one list entry adds: nothing for nil. */
  function EntryLen<I>(c: Codec<I>, e: Option<I>): nat {
    match e
    case None => 0
    case Some(ie) => c.size(ie)
  }

  /** The sizes of the non-nil entries, added in list order. */
  function SumLen<I>(c: Codec<I>, ies: seq<Option<I>>): nat
    decreases |ies|
  {
    if |ies| == 0 then 0 else SumLen(c, ies[..|ies| - 1]) + EntryLen(c, ies[|ies| - 1])
  }

  /** One list entry serialised: nothing for nil. */
  function EncodeEntry<I>(c: Codec<I>, e: Option<I>): Result<seq<byte>> {
    match e
    case None => Success([])
    case Some(ie) => c.encode(ie)
  }

  /** The body: the non-nil entries serialised back to back in list order.
      The first entry that fails to serialise decides the error. */
  function EncodeBody<I>(c: Codec<I>, ies: seq<Option<I>>): Result<seq<byte>>
    decreases |ies|
  {
    if |ies| == 0 then Success([])
    else
      var front :- EncodeBody(c, ies[..|ies| - 1]);
      var last :- EncodeEntry(c, ies[|ies| - 1]);
      Success(front + last)
  }

  /** The total encoded size: the header prefix plus every non-nil IE. */
  function MarshalLen<I>(c: Codec<I>, g: Generic<I>): (n: nat)
    ensures n >= MandatoryLen
    ensures n == PrefixLen(g.header) + SumLen(c, Present(Compact(g.ies)))
  {
    EncodeBodyCompact(c, g.ies);
    PrefixLen(g.header) + SumLen(c, g.ies)
  }

  /** The length field agrees with the encoded size: everything after the
      mandatory eight octets, cut to 16 bits as a Go uint16 conversion
      cuts it. */
  predicate LengthConsistent<I>(c: Codec<I>, g: Generic<I>) {
    g.header.length == (MarshalLen(c, g) - MandatoryLen) % 0x1_0000
  }

  /** Recomputes the length field from the IEs the message holds. */
  function SetLength<I>(c: Codec<I>, g: Generic<I>): (r: Generic<I>)
    ensures r.ies == g.ies && r.header == g.header.(length := r.header.length)
    ensures MarshalLen(c, r) == MarshalLen(c, g)
    ensures LengthConsistent(c, r)
    ensures MarshalLen(c, g) - MandatoryLen < 0x1_0000 ==> r.header.length + MandatoryLen == MarshalLen(c, g)
  {
    g.(header := g.header.(length := (MarshalLen(c, g) - MandatoryLen) % 0x1_0000))
  }

  /** A generic message with the given type, TEID, sequence number and IEs,
      its length field already consistent. */
  function NewGeneric<I>(c: Codec<I>, msgType: byte, teid: uint32, sequence: uint16,
                         ies: seq<Option<I>>): (r: Generic<I>)
    ensures r.ies == ies
    ensures r.header.flags == GenericFlags && r.header.msgType == msgType
    ensures r.header.teid == teid && r.header.sequence == sequence
    ensures MarshalLen(c, r) == MandatoryLen + 4 + SumLen(c, ies)
    ensures LengthConsistent(c, r)
    ensures HeaderOctets(r.header)[8..10] == UintBE(sequence, 2)
  {
    SetLength(c, Generic(NewHeader(GenericFlags, msgType, teid, sequence), ies))
  }

  /** Appends IEs after the ones already held and recomputes the length. */
  function AddIE<I>(c: Codec<I>, g: Generic<I>, more: seq<Option<I>>): (r: Generic<I>)
    ensures |r.ies| == |g.ies| + |more|
    ensures r.ies[..|g.ies|] == g.ies && r.ies[|g.ies|..] == more
    ensures r.header == g.header.(length := r.header.length)
    ensures MarshalLen(c, r) == MarshalLen(c, g) + SumLen(c, more)
    ensures LengthConsistent(c, r)
  {
    SumLenAppend(c, g.ies, more);
    SetLength(c, g.(ies := g.ies + more))
  }

  /** The TEID the message carries in its header: the one its serialised
      header holds in octets 4 to 7. */
  function TEID<I>(g: Generic<I>): (t: uint32)
    ensures HeaderOctets(g.header)[4..8] == UintBE(t, 4)
    ensures FromBE(HeaderOctets(g.header)[4..8]) == t
  {
    FromUintBEFits(g.header.teid, 4);
    g.header.teid
  }

  /** Serialises into the buffer `b`, returning the buffer afterwards: the
      header (its length recomputed from the body) and the body at the
      front, the rest of `b` untouched. An IE error comes first and leaves
      no partial result; a buffer shorter than the message is refused. */
  function MarshalTo<I>(c: Codec<I>, g: Generic<I>, b: seq<byte>): (r: Result<seq<byte>>)
    ensures EncodeBody(c, g.ies).Failure? ==> r == Failure(EncodeBody(c, g.ies).error)
    ensures EncodeBody(c, g.ies).Success? ==>
              var n := PrefixLen(g.header) + |EncodeBody(c, g.ies).value|;
              && (r.Failure? <==> |b| < n)
              && (r.Success? ==> |r.value| == |b| && r.value[n..] == b[n..]
                                 && r.value[PrefixLen(g.header)..n] == EncodeBody(c, g.ies).value
                                 && r.value[..PrefixLen(g.header)] ==
                                      HeaderOctets(g.header.(length := (n - MandatoryLen) % 0x1_0000)))
  {
    var body :- EncodeBody(c, g.ies);
    var h := g.header.(length := (PrefixLen(g.header) + |body| - MandatoryLen) % 0x1_0000);
    var n := PrefixLen(h) + |body|;
    if |b| < n then Failure(TooShortToMarshal)
    else Success(HeaderOctets(h) + body + b[n..])
  }

  /** `n` zero octets: a freshly made Go byte slice. */
  function Zeros(n: nat): (r: seq<byte>)
    ensures |r| == n && forall i :: 0 <= i < n ==> r[i] == 0
  {
    seq(n, i => 0)
  }

  /** Serialises into a buffer of exactly the encoded size. */
  function Marshal<I(!new)>(c: Codec<I>, g: Generic<I>): (r: Result<seq<byte>>)
    ensures Sound(c) ==> (r.Success? <==> EncodeBody(c, g.ies).Success?)
    ensures r.Failure? && EncodeBody(c, g.ies).Failure? ==> r.error == EncodeBody(c, g.ies).error
    ensures Sound(c) && r.Success? ==> |r.value| == MarshalLen(c, g)
    ensures Sound(c) && r.Success? ==>
              EncodeBody(c, g.ies).Success? &&
              r.value == HeaderOctets(SetLength(c, g).header) + EncodeBody(c, g.ies).value
  {
    EncodeBodyLength(c, g.ies);
    MarshalTo(c, g, Zeros(MarshalLen(c, g)))
  }

  /** The body as the source builds it: a zeroed buffer of the summed size,
      each non-nil IE written at the running offset, which then moves on by
      that IE's declared size. */
  method MarshalBody<I(!new)>(c: Codec<I>, ies: seq<Option<I>>) returns (r: Result<seq<byte>>)
    requires Sound(c)
    ensures r == EncodeBody(c, ies)
    ensures r.Success? ==> |r.value| == SumLen(c, ies)
  {
    var payload := Zeros(SumLen(c, ies));
    var offset := 0;
    var i := 0;
    while i < |ies|
      invariant 0 <= i <= |ies|
      invariant offset == SumLen(c, ies[..i])
      invariant SumLen(c, ies[..i]) <= SumLen(c, ies) && |payload| == SumLen(c, ies)
      invariant EncodeBody(c, ies[..i]).Success?
      invariant payload[..offset] == EncodeBody(c, ies[..i]).value
    {
      SumLenPrefix(c, ies, i + 1);
      assert ies[..i + 1][..i] == ies[..i];
      match ies[i] {
        case None =>
        case Some(ie) =>
          var e := c.encode(ie);
          if e.Failure? {
            EncodeBodyPrefixFails(c, ies, i + 1);
            return Failure(e.error);
          }
          payload := payload[..offset] + e.value + payload[offset + |e.value|..];
          offset := offset + c.size(ie);
      }
      i := i + 1;
    }
    assert ies[..i] == ies;
    assert payload[..offset] == payload;
    return Success(payload);
  }

  /** A list of IEs as list entries, none of them nil. */
  function Present<I>(xs: seq<I>): (r: seq<Option<I>>)
    ensures |r| == |xs| && forall i :: 0 <= i < |xs| ==> r[i] == Some(xs[i])
  {
    seq(|xs|, i requires 0 <= i < |xs| => Some(xs[i]))
  }

  /** Decodes into an existing generic message, as the source does it. A
      header error is returned as it is; a payload shorter than two octets
      ends decoding without an error, and then the IEs the message held
      before are kept; otherwise the payload is parsed as IEs and an error
      there is returned. */
  function UnmarshalBinary<I>(c: Codec<I>, g: Generic<I>, b: seq<byte>): (r: Result<Generic<I>>)
    ensures c.parseHeader(b).Failure? ==> r == Failure(c.parseHeader(b).error)
    ensures c.parseHeader(b).Success? && |c.parseHeader(b).value.1| < 2 ==>
              r == Success(g.(header := c.parseHeader(b).value.0))
    ensures c.parseHeader(b).Success? && |c.parseHeader(b).value.1| >= 2 ==>
              (r.Success? <==> c.parseIEs(c.parseHeader(b).value.1).Success?)
    ensures r.Failure? && c.parseHeader(b).Success? ==>
              r.error == c.parseIEs(c.parseHeader(b).value.1).error
    ensures r.Success? ==> r.value.header == c.parseHeader(b).value.0
    ensures c.parseHeader(b).Success? && |c.parseHeader(b).value.1| >= 2 && r.Success? ==>
              r.value.ies == Present(c.parseIEs(c.parseHeader(b).value.1).value)
  {
    var (h, payload) :- c.parseHeader(b);
    if |payload| < 2 then Success(g.(header := h))
    else
      var xs :- c.parseIEs(payload);
      Success(Generic(h, Present(xs)))
  }

  /** The decoding the source evidently intends: the result depends on the
      octets alone, so a short payload gives a message with no IEs. */
  function UnmarshalBinaryIntended<I>(c: Codec<I>, b: seq<byte>): (r: Result<Generic<I>>)
    ensures c.parseHeader(b).Failure? ==> r == Failure(c.parseHeader(b).error)
    ensures c.parseHeader(b).Success? && |c.parseHeader(b).value.1| < 2 ==>
              r == Success(Generic(c.parseHeader(b).value.0, []))
    ensures c.parseHeader(b).Success? && |c.parseHeader(b).value.1| >= 2 ==>
              (r.Success? <==> c.parseIEs(c.parseHeader(b).value.1).Success?)
    ensures r.Failure? && c.parseHeader(b).Success? ==>
              r.error == c.parseIEs(c.parseHeader(b).value.1).error
    ensures r.Success? ==> r.value.header == c.parseHeader(b).value.0
    ensures c.parseHeader(b).Success? && |c.parseHeader(b).value.1| >= 2 && r.Success? ==>
              r.value.ies == Present(c.parseIEs(c.parseHeader(b).value.1).value)
  {
    var (h, payload) :- c.parseHeader(b);
    if |payload| < 2 then Success(Generic(h, []))
    else
      var xs :- c.parseIEs(payload);
      Success(Generic(h, Present(xs)))
  }

  /** Decodes `b` into a fresh generic message, which holds no IEs before
      decoding; there the source's decoding and the intended one agree. */
  function ParseGeneric<I>(c: Codec<I>, b: seq<byte>): (r: Result<Generic<I>>)
    ensures r == UnmarshalBinaryIntended(c, b)
    ensures r.Failure? && c.parseHeader(b).Failure? ==> r.error == c.parseHeader(b).error
    ensures r.Success? ==> c.parseHeader(b).Success? && r.value.header == c.parseHeader(b).value.0
    ensures r.Success? && |c.parseHeader(b).value.1| >= 2 ==>
              r.value.ies == Present(c.parseIEs(c.parseHeader(b).value.1).value)
  {
    UnmarshalBinary(c, Generic(NewHeader(0, 0, 0, 0), []), b)
  }

  // ----- Lemmas -----

  /** A body the sound codec produces is as long as the summed sizes. */
  lemma {:induction false} EncodeBodyLength<I(!new)>(c: Codec<I>, ies: seq<Option<I>>)
    ensures Sound(c) && EncodeBody(c, ies).Success? ==> |EncodeBody(c, ies).value| == SumLen(c, ies)
    decreases |ies|
  {
    if |ies| > 0 && Sound(c) && EncodeBody(c, ies).Success? {
      EncodeBodyLength(c, ies[..|ies| - 1]);
    }
  }

  lemma {:induction false} SumLenAppend<I>(c: Codec<I>, a: seq<Option<I>>, b: seq<Option<I>>)
    ensures SumLen(c, a + b) == SumLen(c, a) + SumLen(c, b)
    decreases |b|
  {
    if |b| > 0 {
      var ab := a + b;
      assert ab[..|ab| - 1] == a + b[..|b| - 1];
      assert ab[|ab| - 1] == b[|b| - 1];
      SumLenAppend(c, a, b[..|b| - 1]);
    } else {
      assert a + b == a;
    }
  }

  /** A prefix of the list never has more octets than the whole. */
  lemma SumLenPrefix<I>(c: Codec<I>, ies: seq<Option<I>>, k: nat)
    requires k <= |ies|
    ensures SumLen(c, ies[..k]) <= SumLen(c, ies)
  {
    assert ies == ies[..k] + ies[k..];
    SumLenAppend(c, ies[..k], ies[k..]);
  }

  /** Once a prefix fails to serialise, the whole list fails with the same
      error. */
  lemma {:induction false} EncodeBodyPrefixFails<I>(c: Codec<I>, ies: seq<Option<I>>, k: nat)
    requires k <= |ies| && EncodeBody(c, ies[..k]).Failure?
    ensures EncodeBody(c, ies) == EncodeBody(c, ies[..k])
    decreases |ies| - k
  {
    if k < |ies| {
      assert ies[..k + 1][..k] == ies[..k];
      EncodeBodyPrefixFails(c, ies, k + 1);
    } else {
      assert ies[..k] == ies;
    }
  }

  /** Nil entries add nothing: the body is the serialisation of the
      non-nil IEs alone. */
  function Compact<I>(ies: seq<Option<I>>): (r: seq<I>)
    ensures |r| <= |ies|
    decreases |ies|
  {
    if |ies| == 0 then []
    else match ies[|ies| - 1]
      case None => Compact(ies[..|ies| - 1])
      case Some(ie) => Compact(ies[..|ies| - 1]) + [ie]
  }

  lemma {:induction false} EncodeBodyCompact<I>(c: Codec<I>, ies: seq<Option<I>>)
    ensures EncodeBody(c, ies) == EncodeBody(c, Present(Compact(ies)))
    ensures SumLen(c, ies) == SumLen(c, Present(Compact(ies)))
    decreases |ies|
  {
    if |ies| > 0 {
      var front := ies[..|ies| - 1];
      EncodeBodyCompact(c, front);
      var p := Present(Compact(ies));
      var pf := Present(Compact(front));
      match ies[|ies| - 1] {
        case None =>
          assert Compact(ies) == Compact(front);
          if EncodeBody(c, front).Success? {
            assert EncodeBody(c, front).value + [] == EncodeBody(c, front).value;
          }
        case Some(ie) =>
          assert Compact(ies) == Compact(front) + [ie];
          assert p[..|p| - 1] == pf;
          assert p[|p| - 1] == Some(ie);
      }
    } else {
      assert Present(Compact(ies)) == [];
    }
  }

  /** Each non-nil IE's octets sit in the body at the offset given by the
      sizes of the entries before it. */
  lemma {:induction false} EntryAtOffset<I(!new)>(c: Codec<I>, ies: seq<Option<I>>, k: nat)
    requires Sound(c) && EncodeBody(c, ies).Success? && k < |ies| && ies[k].Some?
    ensures SumLen(c, ies[..k + 1]) == SumLen(c, ies[..k]) + c.size(ies[k].value)
    ensures SumLen(c, ies[..k + 1]) <= |EncodeBody(c, ies).value|
    ensures c.encode(ies[k].value).Success?
    ensures EncodeBody(c, ies).value[SumLen(c, ies[..k])..SumLen(c, ies[..k + 1])]
         == c.encode(ies[k].value).value
    decreases |ies|
  {
    var front := ies[..|ies| - 1];
    var body := EncodeBody(c, ies).value;
    EncodeBodyLength(c, ies);
    EncodeBodyLength(c, front);
    assert ies[..k + 1][..k] == ies[..k];
    if k == |ies| - 1 {
      assert ies[..k] == front && ies[..k + 1] == ies;
    } else {
      assert front[..k] == ies[..k] && front[..k + 1] == ies[..k + 1] && front[k] == ies[k];
      EntryAtOffset(c, front, k);
      assert body[..|EncodeBody(c, front).value|] == EncodeBody(c, front).value;
    }
  }

  /** Marshalling then parsing gives back the message with its length
      recomputed and its nil entries dropped, provided the two parsers
      invert the header and IE encodings, the length fits its field, and
      the body is empty or at least two octets long. */
  lemma ParseMarshal<I(!new)>(c: Codec<I>, g: Generic<I>)
    requires Sound(c) && EncodeBody(c, g.ies).Success?
    requires MarshalLen(c, g) - MandatoryLen < 0x1_0000
    requires Compact(g.ies) == [] || SumLen(c, g.ies) >= 2
    requires HeaderParses(c, SetLength(c, g).header, EncodeBody(c, g.ies).value)
    requires IEsParse(c, Compact(g.ies))
    ensures Marshal(c, g).Success?
    ensures ParseGeneric(c, Marshal(c, g).value)
         == Success(Generic(SetLength(c, g).header, Present(Compact(g.ies))))
  {
    EncodeBodyCompact(c, g.ies);
    EncodeBodyLength(c, g.ies);
    var body := EncodeBody(c, g.ies).value;
    if |body| < 2 {
      assert Compact(g.ies) == [];
    }
  }

  /** What the round trip needs of the header parser for one frame: it
      gives back the header and exactly the body its length field
      delimits. */
  ghost predicate HeaderParses<I>(c: Codec<I>, h: Header, body: seq<byte>) {
    c.parseHeader(HeaderOctets(h) + body) == Success((h, body))
  }

  /** What the round trip needs of the IE parser for one list: it gives
      back the IEs their serialisation came from. */
  ghost predicate IEsParse<I>(c: Codec<I>, xs: seq<I>) {
    EncodeBody(c, Present(xs)).Success? ==> c.parseIEs(EncodeBody(c, Present(xs)).value) == Success(xs)
  }

  /** The TEID given to the constructor is the one the message reports,
      and adding IEs or recomputing the length does not change it. */
  lemma TEIDKept<I>(c: Codec<I>, msgType: byte, teid: uint32, sequence: uint16,
                    ies: seq<Option<I>>, more: seq<Option<I>>)
    ensures TEID(NewGeneric(c, msgType, teid, sequence, ies)) == teid
    ensures TEID(AddIE(c, NewGeneric(c, msgType, teid, sequence, ies), more)) == teid
  {
  }

  /** Adding IEs one call at a time or all at once gives the same message. */
  lemma AddIEAssociative<I>(c: Codec<I>, g: Generic<I>, a: seq<Option<I>>, b: seq<Option<I>>)
    ensures AddIE(c, AddIE(c, g, a), b) == AddIE(c, g, a + b)
  {
    var g1 := AddIE(c, g, a);
    assert g1.ies + b == g.ies + (a + b);
    SetLengthOverwrites(c, g1.(ies := g1.ies + b), g.(ies := g.ies + (a + b)));
  }

  /** The length field a message held before has no say in the one
      recomputed. */
  lemma SetLengthOverwrites<I>(c: Codec<I>, g: Generic<I>, g': Generic<I>)
    requires g.ies == g'.ies && g.header == g'.header.(length := g.header.length)
    ensures SetLength(c, g) == SetLength(c, g')
  {
  }

  /** Finding: decoding a message whose payload is under two octets into a
      generic message that already holds IEs keeps those stale IEs, so the
      result no longer describes the octets; the intended decoding drops
      them. */
  lemma StaleIEsKept<I>(c: Codec<I>, g: Generic<I>, b: seq<byte>)
    requires g.ies != []
    requires c.parseHeader(b).Success? && |c.parseHeader(b).value.1| < 2
    ensures UnmarshalBinary(c, g, b).Success?
    ensures UnmarshalBinary(c, g, b).value.ies == g.ies
    ensures UnmarshalBinaryIntended(c, b).Success? && UnmarshalBinaryIntended(c, b).value.ies == []
    ensures UnmarshalBinary(c, g, b) != UnmarshalBinaryIntended(c, b)
  {
  }

  /** On a fresh message the source's decoding and the intended one agree,
      so parsing a new generic message is unaffected. */
  lemma FreshDecodingAgrees<I>(c: Codec<I>, h: Header, b: seq<byte>)
    ensures UnmarshalBinary(c, Generic(h, []), b) == UnmarshalBinaryIntended(c, b)
  {
  }
}

=== FILE: gtpv2_csr.dfy ===
/** The Create Session Request message. The constructor files each IE into
    the message field its type (and, for F-TEIDs, its instance) selects, and
    serialisation writes the fields in the message's own field order, so the
    wire order is the field order and not the argument order. */
module CreateSessionRequest {
  import opened Bytes
  import opened Wrappers
  import opened V2IE
  import opened V2IETypes
  import opened V2Message

  const MsgTypeCreateSessionRequest: byte := 0x20

  /** The single-IE fields of the message that this model names. */
  datatype Slot =
    | IMSI | MSISDN | MEI | ULI | ServingNetwork | RATType | IndicationFlags
    | SenderFTEIDC | PGWS5S8FTEIDC | APN | SelectionMode | PDNType | PAA
    | APNRestriction | AMBR

  /** The order in which the message writes its single-IE fields. */
  const SlotOrder: seq<Slot> := [
    IMSI, MSISDN, MEI, ULI, ServingNetwork, RATType, IndicationFlags,
    SenderFTEIDC, PGWS5S8FTEIDC, APN, SelectionMode, PDNType, PAA,
    APNRestriction, AMBR ]

  /** The field an IE is filed under: chosen by type, and for F-TEIDs by
      instance (0 for the sender's control-plane F-TEID, 1 for the PGW's
      S5/S8 control-plane F-TEID). None for Bearer Contexts and for IEs this
      model gives no field. */
  function SlotOf(ie: IE): Option<Slot> {
    if ie.tag == IMSIType then Some(IMSI)
    else if ie.tag == MSISDNType then Some(MSISDN)
    else if ie.tag == MobileEquipmentIdentityType then Some(MEI)
    else if ie.tag == UserLocationInformationType then Some(ULI)
    else if ie.tag == ServingNetworkType then Some(ServingNetwork)
    else if ie.tag == RATTypeType then Some(RATType)
    else if ie.tag == IndicationType then Some(IndicationFlags)
    else if ie.tag == FullyQualifiedTEIDType then
      (if ie.instance == 0 then Some(SenderFTEIDC)
       else if ie.instance == 1 then Some(PGWS5S8FTEIDC)
       else None)
    else if ie.tag == AccessPointNameType then Some(APN)
    else if ie.tag == SelectionModeType then Some(SelectionMode)
    else if ie.tag == PDNTypeType then Some(PDNType)
    else if ie.tag == PDNAddressAllocationType then Some(PAA)
    else if ie.tag == APNRestrictionType then Some(APNRestriction)
    else if ie.tag == AggregateMaximumBitRateType then Some(AMBR)
    else None
  }

  /** The message: header, the named fields that are set, the Bearer
      Contexts to be created in the order given, and every other IE in the
      order given. */
  datatype CreateSessionRequest = CreateSessionRequest(
    header: Header,
    fields: map<Slot, IE>,
    bearerContextsToBeCreated: seq<IE>,
    additionalIEs: seq<IE>)

  /** Files one IE. A later IE for an already-set field replaces the earlier
      one, as an assignment to a struct field does. */
  function Place(c: CreateSessionRequest, ie: IE): CreateSessionRequest {
    match SlotOf(ie)
    case Some(s) => c.(fields := c.fields[s := ie])
    case None =>
      if ie.tag == BearerContextType && ie.instance == 0 then
        c.(bearerContextsToBeCreated := c.bearerContextsToBeCreated + [ie])
      else
        c.(additionalIEs := c.additionalIEs + [ie])
  }

  /** Files the IEs left to right; nil arguments are skipped. */
  function Build(c: CreateSessionRequest, ies: seq<Option<IE>>): CreateSessionRequest
    decreases |ies|
  {
    if |ies| == 0 then c
    else Build(if ies[0].Some? then Place(c, ies[0].value) else c, ies[1..])
  }

  /** The set fields, in the given order. */
  function Present(order: seq<Slot>, m: map<Slot, IE>): seq<IE>
  {
    if |order| == 0 then []
    else (if order[0] in m then [m[order[0]]] else []) + Present(order[1..], m)
  }

  /** The IEs of a message in the order it serialises them. */
  function Fields(c: CreateSessionRequest): seq<IE> {
    Present(SlotOrder, c.fields) + c.bearerContextsToBeCreated + c.additionalIEs
  }

  /** The non-nil arguments, in order. */
  function NonNil(ies: seq<Option<IE>>): seq<IE>
  {
    if |ies| == 0 then []
    else (if ies[0].Some? then [ies[0].value] else []) + NonNil(ies[1..])
  }

  /** A message with no IE filed yet: version 2, the TEID flag set. */
  function EmptyRequest(teid: uint32, sequence: uint32): CreateSessionRequest {
    CreateSessionRequest(
      Header(HeaderFlags(2, 0, 1), MsgTypeCreateSessionRequest, 0, teid, sequence, 0),
      map[], [], [])
  }

  /** Recomputes the header's length field from the IEs the message holds. */
  function SetRequestLength(c: CreateSessionRequest): CreateSessionRequest {
    c.(header := SetLength(c.header, EncodeAll(Fields(c))))
  }

  /** The message the constructor returns: the IEs filed into an empty
      request, then the length field recomputed. */
  function NewCreateSessionRequest(teid: uint32, sequence: uint32, ies: seq<Option<IE>>): (r: CreateSessionRequest)
    ensures r.header.flags == 0x48 && r.header.msgType == MsgTypeCreateSessionRequest
    ensures r.header.teid == teid && r.header.sequence == sequence
    ensures 8 + SizeAll(Fields(r)) < 0x1_0000 ==> r.header.length == 8 + SizeAll(Fields(r))
  {
    var c := Build(EmptyRequest(teid, sequence), ies);
    EmptyRequestHeader(teid, sequence);
    BuildHeader(EmptyRequest(teid, sequence), ies);
    EncodeAllSize(Fields(c));
    SetRequestLength(c)
  }

  function AsMessage(c: CreateSessionRequest): Message {
    Message(c.header, Fields(c))
  }

  /** The wire form of the message. */
  function MarshalCreateSessionRequest(c: CreateSessionRequest): seq<byte> {
    Marshal(AsMessage(c))
  }

  /** After the length is recomputed, the length field counts every octet
      of the serialised message after the first four, whenever that count
      fits 16 bits; nothing else changes. */
  lemma SetRequestLengthConsistent(c: CreateSessionRequest)
    requires PrefixLen(c.header) + SizeAll(Fields(c)) - 4 < 0x1_0000
    ensures var c' := SetRequestLength(c);
      && c'.header.length == |MarshalCreateSessionRequest(c')| - 4
      && c' == c.(header := c.header.(length := c'.header.length))
  {
    var c' := SetRequestLength(c);
    EncodeAllSize(Fields(c));
    assert Fields(c') == Fields(c);
    MarshalCreateSessionRequestSize(c');
  }

  /** The constructor's header: version 2, TEID present, the given TEID and
      sequence number, and a length field that counts every octet of the
      serialised message after the first four. */
  lemma NewCreateSessionRequestHeader(teid: uint32, sequence: uint32, ies: seq<Option<IE>>)
    requires 12 + SizeAll(Fields(Build(EmptyRequest(teid, sequence), ies))) - 4 < 0x1_0000
    ensures var c := NewCreateSessionRequest(teid, sequence, ies);
      && Version(c.header) == 2 && HasTEID(c.header)
      && c.header.msgType == MsgTypeCreateSessionRequest
      && c.header.teid == teid && c.header.sequence == sequence
      && c.header.length == |MarshalCreateSessionRequest(c)| - 4
  {
    var e := EmptyRequest(teid, sequence);
    EmptyRequestHeader(teid, sequence);
    BuildHeader(e, ies);
    SetRequestLengthConsistent(Build(e, ies));
  }

  lemma EmptyRequestHeader(teid: uint32, sequence: uint32)
    ensures var h := EmptyRequest(teid, sequence).header;
      && h.flags == 0x48 && PrefixLen(h) == 12
      && h.msgType == MsgTypeCreateSessionRequest && h.teid == teid && h.sequence == sequence
  {
    assert HeaderFlags(2, 0, 1) == 0x48;
  }

  /** The serialised size: the header prefix plus the encoded IEs. */
  lemma MarshalCreateSessionRequestSize(c: CreateSessionRequest)
    ensures |MarshalCreateSessionRequest(c)| == PrefixLen(c.header) + |EncodeAll(Fields(c))|
  {
    EncodeAllSize(Fields(c));
  }

  /** Filing leaves the header alone. */
  lemma {:induction false} BuildHeader(c: CreateSessionRequest, ies: seq<Option<IE>>)
    ensures Build(c, ies).header == c.header
    decreases |ies|
  {
    if |ies| > 0 {
      var c' := if ies[0].Some? then Place(c, ies[0].value) else c;
      assert c'.header == c.header;
      BuildHeader(c', ies[1..]);
    }
  }

  /** When every field in the order is set, the message writes exactly
      one IE per field, in that order. */
  lemma {:induction false} PresentAll(order: seq<Slot>, m: map<Slot, IE>)
    requires forall i :: 0 <= i < |order| ==> order[i] in m
    ensures |Present(order, m)| == |order|
    ensures forall i :: 0 <= i < |order| ==> Present(order, m)[i] == m[order[i]]
  {
    if |order| > 0 {
      var rest := order[1..];
      assert forall i :: 0 <= i < |rest| ==> rest[i] == order[i + 1];
      PresentAll(rest, m);
    }
  }

  // ----- Filing is a permutation when no field is given twice -----

  predicate DistinctSlots(order: seq<Slot>) {
    forall i, j :: 0 <= i < j < |order| ==> order[i] != order[j]
  }

  lemma SlotOrderDistinct()
    ensures DistinctSlots(SlotOrder)
    ensures forall s: Slot :: s in SlotOrder
  {
    forall s: Slot
      ensures s in SlotOrder
    {
      match s
      case IMSI => assert SlotOrder[0] == s;
      case MSISDN => assert SlotOrder[1] == s;
      case MEI => assert SlotOrder[2] == s;
      case ULI => assert SlotOrder[3] == s;
      case ServingNetwork => assert SlotOrder[4] == s;
      case RATType => assert SlotOrder[5] == s;
      case IndicationFlags => assert SlotOrder[6] == s;
      case SenderFTEIDC => assert SlotOrder[7] == s;
      case PGWS5S8FTEIDC => assert SlotOrder[8] == s;
      case APN => assert SlotOrder[9] == s;
      case SelectionMode => assert SlotOrder[10] == s;
      case PDNType => assert SlotOrder[11] == s;
      case PAA => assert SlotOrder[12] == s;
      case APNRestriction => assert SlotOrder[13] == s;
      case AMBR => assert SlotOrder[14] == s;
    }
  }

  lemma {:induction false} PresentEmpty(order: seq<Slot>)
    ensures Present(order, map[]) == []
  {
    if |order| > 0 {
      PresentEmpty(order[1..]);
    }
  }

  /** Fields that `order` does not mention do not affect `Present`. */
  lemma {:induction false} PresentIgnores(order: seq<Slot>, m: map<Slot, IE>, s: Slot, x: IE)
    requires s !in order
    ensures Present(order, m[s := x]) == Present(order, m)
  {
    if |order| > 0 {
      PresentIgnores(order[1..], m, s, x);
    }
  }

  lemma DistinctTail(order: seq<Slot>)
    requires |order| > 0 && DistinctSlots(order)
    ensures DistinctSlots(order[1..]) && order[0] !in order[1..]
  {
    var rest := order[1..];
    forall i, j | 0 <= i < j < |rest|
      ensures rest[i] != rest[j]
    {
      assert rest[i] == order[i + 1] && rest[j] == order[j + 1];
    }
    forall k | 0 <= k < |rest|
      ensures rest[k] != order[0]
    {
      assert rest[k] == order[k + 1];
    }
  }

  /** Setting a field that was unset adds the new IE. */
  lemma {:induction false} PresentInsert(order: seq<Slot>, m: map<Slot, IE>, s: Slot, x: IE)
    requires s in order && DistinctSlots(order) && s !in m
    ensures multiset(Present(order, m[s := x])) == multiset(Present(order, m)) + multiset{x}
  {
    DistinctTail(order);
    if order[0] == s {
      PresentIgnores(order[1..], m, s, x);
    } else {
      PresentInsert(order[1..], m, s, x);
    }
  }

  /** Setting a field that was set swaps its old IE for the new one. */
  lemma {:induction false} PresentReplace(order: seq<Slot>, m: map<Slot, IE>, s: Slot, x: IE)
    requires s in order && DistinctSlots(order) && s in m
    ensures multiset(Present(order, m[s := x])) + multiset{m[s]} == multiset(Present(order, m)) + multiset{x}
  {
    DistinctTail(order);
    var m' := m[s := x];
    if order[0] == s {
      PresentIgnores(order[1..], m, s, x);
      assert Present(order, m') == [x] + Present(order[1..], m);
      assert Present(order, m) == [m[s]] + Present(order[1..], m);
    } else {
      PresentReplace(order[1..], m, s, x);
      var head := if order[0] in m then [m[order[0]]] else [];
      assert (order[0] in m') == (order[0] in m);
      assert order[0] in m ==> m'[order[0]] == m[order[0]];
      assert Present(order, m') == head + Present(order[1..], m');
      assert Present(order, m) == head + Present(order[1..], m);
      SwapUnderHead(head, Present(order[1..], m), Present(order[1..], m'), m[s], x);
    }
  }

  /** A swap in the tail of a sequence is the same swap in the whole. */
  lemma SwapUnderHead<T>(head: seq<T>, r: seq<T>, r': seq<T>, a: T, b: T)
    requires multiset(r') + multiset{a} == multiset(r) + multiset{b}
    ensures multiset(head + r') + multiset{a} == multiset(head + r) + multiset{b}
  {
    calc {
      multiset(head + r') + multiset{a};
      multiset(head) + (multiset(r') + multiset{a});
      multiset(head) + (multiset(r) + multiset{b});
      multiset(head + r) + multiset{b};
    }
  }

  /** No argument's field is already set in `c`, and no two arguments share
      a field. */
  predicate FreshSlots(c: CreateSessionRequest, ies: seq<Option<IE>>) {
    && (forall i :: 0 <= i < |ies| && ies[i].Some? && SlotOf(ies[i].value).Some? ==>
          SlotOf(ies[i].value).value !in c.fields)
    && (forall i, j :: 0 <= i < j < |ies| && ies[i].Some? && ies[j].Some? && SlotOf(ies[i].value).Some? ==>
          SlotOf(ies[i].value) != SlotOf(ies[j].value))
  }

  /** The serialised IEs of a message, as a multiset, split by where they
      are held. */
  lemma FieldsMultiset(c: CreateSessionRequest)
    ensures multiset(Fields(c)) ==
      multiset(Present(SlotOrder, c.fields)) + multiset(c.bearerContextsToBeCreated) + multiset(c.additionalIEs)
  {
  }

  /** Setting a field in a message: the serialised IEs gain the new IE
      and lose the one the field held, if any. */
  lemma SetFieldMultiset(c: CreateSessionRequest, s: Slot, ie: IE)
    ensures var c' := c.(fields := c.fields[s := ie]);
      && multiset(Fields(c')) <= multiset(Fields(c)) + multiset{ie}
      && (s !in c.fields ==> multiset(Fields(c')) == multiset(Fields(c)) + multiset{ie})
  {
    var c' := c.(fields := c.fields[s := ie]);
    SlotOrderDistinct();
    SetPresentMultiset(SlotOrder, c.fields, s, ie);
    FieldsMultiset(c);
    FieldsMultiset(c');
  }

  /** The same, for the set fields in any order that lists each field
      once. */
  lemma SetPresentMultiset(order: seq<Slot>, m: map<Slot, IE>, s: Slot, ie: IE)
    requires s in order && DistinctSlots(order)
    ensures multiset(Present(order, m[s := ie])) <= multiset(Present(order, m)) + multiset{ie}
    ensures s !in m ==> multiset(Present(order, m[s := ie])) == multiset(Present(order, m)) + multiset{ie}
  {
    if s in m {
      PresentReplace(order, m, s, ie);
    } else {
      PresentInsert(order, m, s, ie);
    }
  }

  /** Filing one IE adds it to the serialised IEs and drops at most the IE
      its field held before. */
  lemma PlaceMultiset(c: CreateSessionRequest, ie: IE)
    ensures multiset(Fields(Place(c, ie))) <= multiset(Fields(c)) + multiset{ie}
    ensures SlotOf(ie).None? || SlotOf(ie).value !in c.fields ==>
      multiset(Fields(Place(c, ie))) == multiset(Fields(c)) + multiset{ie}
  {
    var slot := SlotOf(ie);
    if slot.Some? {
      SetFieldMultiset(c, slot.value, ie);
    }
  }

  /** Filing never invents an IE: every serialised IE is one of the
      arguments, counted with multiplicity. */
  lemma {:induction false} BuildSubMultiset(c: CreateSessionRequest, ies: seq<Option<IE>>)
    decreases |ies|
    ensures multiset(Fields(Build(c, ies))) <= multiset(Fields(c)) + multiset(NonNil(ies))
  {
    if |ies| > 0 {
      var c' := if ies[0].Some? then Place(c, ies[0].value) else c;
      if ies[0].Some? {
        PlaceMultiset(c, ies[0].value);
      }
      BuildSubMultiset(c', ies[1..]);
    }
  }

  /** The fields after filing one IE. */
  lemma PlaceFields(c: CreateSessionRequest, ie: IE)
    ensures SlotOf(ie).None? ==> Place(c, ie).fields == c.fields
    ensures SlotOf(ie).Some? ==> Place(c, ie).fields == c.fields[SlotOf(ie).value := ie]
  {
  }

  /** Filing the first argument keeps the rest fresh. */
  lemma FreshSlotsTail(c: CreateSessionRequest, ies: seq<Option<IE>>)
    requires |ies| > 0 && FreshSlots(c, ies)
    ensures FreshSlots(if ies[0].Some? then Place(c, ies[0].value) else c, ies[1..])
  {
    var c' := if ies[0].Some? then Place(c, ies[0].value) else c;
    var tail := ies[1..];
    if ies[0].Some? {
      PlaceFields(c, ies[0].value);
    }
    forall i | 0 <= i < |tail| && tail[i].Some? && SlotOf(tail[i].value).Some?
      ensures SlotOf(tail[i].value).value !in c'.fields
    {
      assert tail[i] == ies[i + 1];
    }
    forall i, j | 0 <= i < j < |tail| && tail[i].Some? && tail[j].Some? && SlotOf(tail[i].value).Some?
      ensures SlotOf(tail[i].value) != SlotOf(tail[j].value)
    {
      assert tail[i] == ies[i + 1] && tail[j] == ies[j + 1];
    }
  }

  /** When no field is given twice, filing loses nothing: the serialised IEs
      are a permutation of the arguments. */
  lemma {:induction false} BuildPermutation(c: CreateSessionRequest, ies: seq<Option<IE>>)
    requires FreshSlots(c, ies)
    ensures multiset(Fields(Build(c, ies))) == multiset(Fields(c)) + multiset(NonNil(ies))
    decreases |ies|
  {
    if |ies| > 0 {
      var c' := if ies[0].Some? then Place(c, ies[0].value) else c;
      var head := if ies[0].Some? then [ies[0].value] else [];
      assert NonNil(ies) == head + NonNil(ies[1..]);
      assert Build(c, ies) == Build(c', ies[1..]);
      if ies[0].Some? {
        PlaceMultiset(c, ies[0].value);
        assert multiset(Fields(c')) == multiset(Fields(c)) + multiset(head);
      }
      FreshSlotsTail(c, ies);
      BuildPermutation(c', ies[1..]);
    }
  }

  /** The constructor serialises exactly its non-nil arguments, reordered,
      when no field is given twice; in every case it serialises nothing
      that was not an argument. */
  lemma NewCreateSessionRequestIEs(teid: uint32, sequence: uint32, ies: seq<Option<IE>>)
    ensures multiset(Fields(NewCreateSessionRequest(teid, sequence, ies))) <= multiset(NonNil(ies))
    ensures FreshSlots(EmptyRequest(teid, sequence), ies) ==>
      multiset(Fields(NewCreateSessionRequest(teid, sequence, ies))) == multiset(NonNil(ies))
  {
    var empty := EmptyRequest(teid, sequence);
    PresentEmpty(SlotOrder);
    assert Fields(empty) == [];
    var built := Build(empty, ies);
    assert Fields(NewCreateSessionRequest(teid, sequence, ies)) == Fields(built);
    BuildSubMultiset(empty, ies);
    if FreshSlots(EmptyRequest(teid, sequence), ies) {
      BuildPermutation(empty, ies);
    }
  }
}

=== FILE: gtpv2_ie.dfy ===
/** GTPv2-C information elements (clause 8.2.1 of 3GPP TS 29.274): a type
    octet, a two-octet big-endian length that counts the value only, an
    octet holding a spare nibble above a 4-bit instance, then the value. A
    grouped IE's value is itself a sequence of IEs in the same layout. */
module V2IE {
  import opened Bytes
  import opened Wrappers

  /** The Bearer Context type, the one grouped IE of this model. */
  const BearerContextType: byte := 0x5d

  /** The IE type registry's answer to "is this type grouped?". */
  predicate IsGroupedType(t: byte) {
    t == BearerContextType
  }

  /** An IE: either raw value octets, or an ordered list of child IEs. The
      spare nibble is kept so that reserved bits round-trip as sent. */
  datatype IE =
    | Leaf(tag: byte, spare: nibble, instance: nibble, payload: seq<byte>)
    | Grouped(tag: byte, spare: nibble, instance: nibble, children: seq<IE>)

  /** The fourth octet of an IE: spare nibble high, instance low. */
  function InstanceOctet(ie: IE): byte {
    ie.spare * 16 + ie.instance
  }

  /** The wire form of one IE. The length field is computed from the value
      actually written, truncated to 16 bits as a Go uint16 would be. */
  function Encode(ie: IE): seq<byte>
    decreases ie, 1
  {
    var v := Value(ie);
    [ie.tag] + UintBE(|v|, 2) + [InstanceOctet(ie)] + v
  }

  /** The value octets of an IE: its payload, or its children encoded in
      order. */
  function Value(ie: IE): seq<byte>
    decreases ie, 0
  {
    match ie
    case Leaf(_, _, _, p) => p
    case Grouped(_, _, _, cs) => EncodeAll(cs)
  }

  /** IEs encoded back to back, in list order. */
  function EncodeAll(ies: seq<IE>): seq<byte>
    decreases ies
  {
    if |ies| == 0 then [] else Encode(ies[0]) + EncodeAll(ies[1..])
  }

  /** An IE the encoder represents faithfully: every value length fits the
      16-bit length field, and an IE is grouped exactly when the registry
      says its type is, all the way down. */
  predicate WellFormed(ie: IE)
    decreases ie, 2
  {
    && |Value(ie)| < 0x1_0000
    && (IsGroupedType(ie.tag) <==> ie.Grouped?)
    && (ie.Grouped? ==> AllWellFormed(ie.children))
  }

  predicate AllWellFormed(ies: seq<IE>)
    decreases ies
  {
    forall i :: 0 <= i < |ies| ==> WellFormed(ies[i])
  }

  /** The full size of an IE, computed from its structure alone: four header
      octets plus the value, a grouped value being its children's sizes. */
  function Size(ie: IE): nat
    decreases ie
  {
    match ie
    case Leaf(_, _, _, p) => 4 + |p|
    case Grouped(_, _, _, cs) => 4 + SizeAll(cs)
  }

  function SizeAll(ies: seq<IE>): nat
    decreases ies
  {
    if |ies| == 0 then 0 else Size(ies[0]) + SizeAll(ies[1..])
  }

  /** The value of the length field an encoded IE carries. */
  function LengthField(ie: IE): nat {
    FromBE(Encode(ie)[1..3])
  }

  /** Parses one IE from the front of `b`, returning it and what follows.
      Types the registry calls grouped have their value parsed as IEs. */
  function ParseIE(b: seq<byte>): (r: Result<(IE, seq<byte>)>)
    ensures r.Success? ==> |r.value.1| < |b|
    ensures r.Success? ==> r.value.0.tag == b[0] && r.value.1 == b[|b| - |r.value.1|..]
    decreases |b|, 0
  {
    if |b| < 4 then Failure(TruncatedIE)
    else
      var n := FromBE(b[1..3]);
      if |b| - 4 < n then Failure(TruncatedIE)
      else
        var v := b[4..4 + n];
        var rest := b[4 + n..];
        if IsGroupedType(b[0]) then
          var cs :- ParseIEs(v);
          Success((Grouped(b[0], b[3] / 16, b[3] % 16, cs), rest))
        else
          Success((Leaf(b[0], b[3] / 16, b[3] % 16, v), rest))
  }

  /** Parses IEs until the range is used up; the first error stops the
      parse and no partial list is returned. */
  function ParseIEs(b: seq<byte>): (r: Result<seq<IE>>)
    decreases |b|, 1
  {
    if |b| == 0 then Success([])
    else
      var first :- ParseIE(b);
      var more :- ParseIEs(first.1);
      Success([first.0] + more)
  }

  /** The encoding of an IE is as long as its structural size says. */
  lemma {:induction false} EncodeSize(ie: IE)
    ensures |Encode(ie)| == Size(ie)
    decreases ie
  {
    if ie.Grouped? {
      EncodeAllSize(ie.children);
    }
  }

  lemma {:induction false} EncodeAllSize(ies: seq<IE>)
    ensures |EncodeAll(ies)| == SizeAll(ies)
    decreases ies
  {
    if |ies| > 0 {
      EncodeSize(ies[0]);
      EncodeAllSize(ies[1..]);
    }
  }

  /** Reading the fields back out of an encoded IE: the type octet, a
      length field holding the value's length modulo 2^16, the spare and
      instance nibbles, then the value. */
  lemma EncodeLayout(ie: IE)
    ensures |Encode(ie)| >= 4 && Encode(ie)[0] == ie.tag
    ensures FromBE(Encode(ie)[1..3]) == |Value(ie)| % 0x1_0000
    ensures Encode(ie)[3] / 16 == ie.spare && Encode(ie)[3] % 16 == ie.instance
    ensures Encode(ie)[4..] == Value(ie)
  {
    var e := Encode(ie);
    assert e[1..3] == UintBE(|Value(ie)|, 2);
    FromUintBE(|Value(ie)|, 2);
    assert Pow256(2) == 0x1_0000;
    NibblePair(ie.spare, ie.instance);
  }

  /** The length field of a well-formed IE is its size minus the four
      header octets: it counts exactly the value. */
  lemma LengthFieldIsValueSize(ie: IE)
    requires WellFormed(ie)
    ensures LengthField(ie) == Size(ie) - 4 == |Value(ie)|
  {
    var e := Encode(ie);
    assert e[1..3] == UintBE(|Value(ie)|, 2);
    FromUintBEFits(|Value(ie)|, 2);
    EncodeSize(ie);
  }

  /** The sum, over a list of IEs, of each one's full size as read from its
      own length field. */
  function SumFullSizes(ies: seq<IE>): nat
  {
    if |ies| == 0 then 0 else 4 + LengthField(ies[0]) + SumFullSizes(ies[1..])
  }

  /** A grouped IE declares as its length the sum, over its children, of
      four header octets plus the length each child declares. */
  lemma GroupedLength(ie: IE)
    requires ie.Grouped? && WellFormed(ie)
    ensures LengthField(ie) == SumFullSizes(ie.children)
  {
    LengthFieldIsValueSize(ie);
    EncodeAllSize(ie.children);
    ChildSizes(ie.children);
  }

  lemma {:induction false} ChildSizes(ies: seq<IE>)
    requires AllWellFormed(ies)
    ensures SumFullSizes(ies) == SizeAll(ies)
  {
    if |ies| > 0 {
      LengthFieldIsValueSize(ies[0]);
      ChildSizes(ies[1..]);
    }
  }

  /** Encoding distributes over list concatenation. */
  lemma {:induction false} EncodeAllAppend(a: seq<IE>, b: seq<IE>)
    ensures EncodeAll(a + b) == EncodeAll(a) + EncodeAll(b)
  {
    if |a| > 0 {
      assert (a + b)[1..] == a[1..] + b;
      EncodeAllAppend(a[1..], b);
    } else {
      assert a + b == b;
    }
  }

  lemma {:induction false} SizeAllAppend(a: seq<IE>, b: seq<IE>)
    ensures SizeAll(a + b) == SizeAll(a) + SizeAll(b)
  {
    if |a| > 0 {
      assert (a + b)[1..] == a[1..] + b;
      SizeAllAppend(a[1..], b);
    } else {
      assert a + b == b;
    }
  }

  /** In an encoded list, IE i occupies the octets from the summed sizes of
      the IEs before it up to that sum plus its own size. */
  lemma EncodeAllOffsets(ies: seq<IE>, i: nat)
    requires i < |ies|
    ensures SizeAll(ies[..i]) + Size(ies[i]) <= |EncodeAll(ies)|
    ensures EncodeAll(ies)[SizeAll(ies[..i])..SizeAll(ies[..i]) + Size(ies[i])] == Encode(ies[i])
  {
    assert ies == ies[..i] + ([ies[i]] + ies[i + 1..]);
    EncodeAllAppend(ies[..i], [ies[i]] + ies[i + 1..]);
    EncodeAllSize(ies[..i]);
    EncodeSize(ies[i]);
    assert EncodeAll([ies[i]] + ies[i + 1..]) == Encode(ies[i]) + EncodeAll(ies[i + 1..]) by {
      assert ([ies[i]] + ies[i + 1..])[1..] == ies[i + 1..];
    }
  }

  /** Parsing the encoding of a well-formed IE, followed by anything, gives
      back the IE and leaves the rest untouched. */
  lemma {:induction false} ParseEncode(ie: IE, rest: seq<byte>)
    requires WellFormed(ie)
    ensures ParseIE(Encode(ie) + rest) == Success((ie, rest))
    decreases ie
  {
    var v := Value(ie);
    var b := Encode(ie) + rest;
    assert b[0] == ie.tag;
    assert b[1..3] == UintBE(|v|, 2);
    FromUintBEFits(|v|, 2);
    assert b[3] == InstanceOctet(ie);
    NibblePair(ie.spare, ie.instance);
    assert b[4..4 + |v|] == v;
    assert b[4 + |v|..] == rest;
    if ie.Grouped? {
      ParseEncodeAll(ie.children);
    }
  }

  /** Parsing an encoded list of well-formed IEs gives the list back, in
      order. */
  lemma {:induction false} ParseEncodeAll(ies: seq<IE>)
    requires AllWellFormed(ies)
    ensures ParseIEs(EncodeAll(ies)) == Success(ies)
    decreases ies
  {
    if |ies| > 0 {
      ParseEncode(ies[0], EncodeAll(ies[1..]));
      ParseEncodeAll(ies[1..]);
      assert ies == [ies[0]] + ies[1..];
    }
  }

  /** Whatever parses is well-formed, and re-encoding it reproduces the
      parsed octets exactly. */
  lemma {:induction false} EncodeParse(b: seq<byte>)
    requires ParseIE(b).Success?
    ensures WellFormed(ParseIE(b).value.0)
    ensures Encode(ParseIE(b).value.0) + ParseIE(b).value.1 == b
    decreases |b|, 0
  {
    var n := FromBE(b[1..3]);
    var v := b[4..4 + n];
    var ie := ParseIE(b).value.0;
    if IsGroupedType(b[0]) {
      EncodeParseAll(v);
    }
    assert Value(ie) == v;
    UintBEFrom(b[1..3]);
    NibbleSplit(b[3]);
    assert b == [b[0]] + b[1..3] + [b[3]] + v + b[4 + n..];
  }

  lemma {:induction false} EncodeParseAll(b: seq<byte>)
    requires ParseIEs(b).Success?
    ensures AllWellFormed(ParseIEs(b).value)
    ensures EncodeAll(ParseIEs(b).value) == b
    decreases |b|, 1
  {
    if |b| > 0 {
      var first := ParseIE(b).value;
      EncodeParse(b);
      EncodeParseAll(first.1);
      var ies := ParseIEs(b).value;
      assert ies[1..] == ParseIEs(first.1).value;
    }
  }
}

=== FILE: gtpv2_ies.dfy ===
/** The GTPv2-C IE constructors a Create Session Request from an MME uses,
    each building the value layout clause 8 of 3GPP TS 29.274 gives its
    type. Digit arguments are held to what that clause defines (decimal
    digits; a three-digit MCC and a two- or three-digit MNC), and a
    constructor given anything else has no IE to return. */
module V2IETypes {
  import opened Bytes
  import opened Wrappers
  import opened V2IE
  import Bcd
  import Apn

  const IMSIType: byte := 0x01
  const AccessPointNameType: byte := 0x47
  const AggregateMaximumBitRateType: byte := 0x48
  const EPSBearerIDType: byte := 0x49
  const MobileEquipmentIdentityType: byte := 0x4b
  const MSISDNType: byte := 0x4c
  const IndicationType: byte := 0x4d
  const PDNAddressAllocationType: byte := 0x4f
  const BearerQoSType: byte := 0x50
  const RATTypeType: byte := 0x52
  const ServingNetworkType: byte := 0x53
  const UserLocationInformationType: byte := 0x56
  const FullyQualifiedTEIDType: byte := 0x57
  const PDNTypeType: byte := 0x63
  const APNRestrictionType: byte := 0x7f
  const SelectionModeType: byte := 0x80

  /** PDN type value for IPv4. */
  const PDNTypeIPv4: byte := 1

  type IPv4 = s: seq<byte> | |s| == 4 witness [0, 0, 0, 0]
  type IPv6 = s: seq<byte> | |s| == 16 witness seq(16, _ => 0)

  /** An IE with a raw value, instance 0 and spare bits clear. */
  function LeafIE(tag: byte, value: seq<byte>): IE {
    Leaf(tag, 0, 0, value)
  }

  function NewIMSI(imsi: string): (r: Option<IE>)
    ensures r.Some? <==> Bcd.AllDigits(imsi)
  {
    var v :- Bcd.SwappedDigits(imsi);
    Some(LeafIE(IMSIType, v))
  }

  function NewMSISDN(msisdn: string): (r: Option<IE>)
    ensures r.Some? <==> Bcd.AllDigits(msisdn)
  {
    var v :- Bcd.SwappedDigits(msisdn);
    Some(LeafIE(MSISDNType, v))
  }

  function NewMobileEquipmentIdentity(mei: string): (r: Option<IE>)
    ensures r.Some? <==> Bcd.AllDigits(mei)
  {
    var v :- Bcd.SwappedDigits(mei);
    Some(LeafIE(MobileEquipmentIdentityType, v))
  }

  /** The identity an IMSI, MSISDN or MEI IE carries. */
  function DigitsOf(ie: IE): Option<string> {
    if ie.Leaf? then Bcd.DecodeDigits(ie.payload) else None
  }

  /** A subscriber or equipment identity IE gives back the digits it was
      built from, in ceil(n/2) value octets. */
  lemma IdentityDigits(digits: string)
    requires Bcd.AllDigits(digits)
    ensures NewIMSI(digits).Some? && NewMSISDN(digits).Some? && NewMobileEquipmentIdentity(digits).Some?
    ensures DigitsOf(NewIMSI(digits).value) == Some(digits)
    ensures DigitsOf(NewMSISDN(digits).value) == Some(digits)
    ensures DigitsOf(NewMobileEquipmentIdentity(digits).value) == Some(digits)
    ensures |NewIMSI(digits).value.payload| == (|digits| + 1) / 2
    ensures |NewMSISDN(digits).value.payload| == (|digits| + 1) / 2
    ensures |NewMobileEquipmentIdentity(digits).value.payload| == (|digits| + 1) / 2
  {
    Bcd.DecodeEncodeDigits(digits);
  }

  function NewAccessPointName(apn: seq<byte>): IE {
    LeafIE(AccessPointNameType, Apn.EncodeAPN(apn))
  }

  /** An APN IE's value is one octet longer than the name and decodes back
      to the name when every label fits its length octet. */
  lemma AccessPointNameValue(apn: seq<byte>)
    ensures |NewAccessPointName(apn).payload| == |apn| + 1
    ensures Apn.LabelsFit(Apn.Split(apn)) ==> Apn.DecodeAPN(NewAccessPointName(apn).payload) == Success(apn)
  {
    Apn.EncodeAPNLength(apn);
    if Apn.LabelsFit(Apn.Split(apn)) {
      Apn.DecodeEncodeAPN(apn);
    }
  }

  /** F-TEID value: a flags octet (bit 8 IPv4 present, bit 7 IPv6 present,
      low six bits the interface type), the TEID/GRE key, then the
      addresses present. */
  function NewFullyQualifiedTEID(ifType: byte, teid: uint32, v4: Option<IPv4>, v6: Option<IPv6>): IE {
    var flags := (if v4.Some? then 0x80 else 0) + (if v6.Some? then 0x40 else 0) + ifType % 64;
    var addrs := (if v4.Some? then v4.value else []) + (if v6.Some? then v6.value else []);
    LeafIE(FullyQualifiedTEIDType, [flags] + UintBE(teid, 4) + addrs)
  }

  /** The F-TEID fields read back from its value octets. */
  lemma FullyQualifiedTEIDFields(ifType: byte, teid: uint32, v4: IPv4)
    ensures var p := NewFullyQualifiedTEID(ifType, teid, Some(v4), None).payload;
      && |p| == 9
      && p[0] / 128 == 1 && (p[0] / 64) % 2 == 0 && p[0] % 64 == ifType % 64
      && FromBE(p[1..5]) == teid
      && p[5..9] == v4
  {
    var p := NewFullyQualifiedTEID(ifType, teid, Some(v4), None).payload;
    assert p[1..5] == UintBE(teid, 4);
    FromUintBEFits(teid, 4);
  }

  /** The same IE under another instance number; nothing else changes. */
  function WithInstance(ie: IE, instance: nibble): (r: IE)
    ensures Encode(r)[3] % 16 == instance
    ensures Encode(r)[3] / 16 == ie.spare
    ensures Encode(r)[..3] == Encode(ie)[..3] && Encode(r)[4..] == Encode(ie)[4..]
  {
    NibblePair(ie.spare, instance);
    ie.(instance := instance)
  }

  function NewPDNType(pdnType: byte): IE {
    LeafIE(PDNTypeType, [pdnType])
  }

  /** AMBR value: uplink then downlink, each a 32-bit big-endian rate. */
  function NewAggregateMaximumBitRate(uplink: uint32, downlink: uint32): IE {
    LeafIE(AggregateMaximumBitRateType, UintBE(uplink, 4) + UintBE(downlink, 4))
  }

  lemma AggregateMaximumBitRateFields(uplink: uint32, downlink: uint32)
    ensures var p := NewAggregateMaximumBitRate(uplink, downlink).payload;
      |p| == 8 && FromBE(p[..4]) == uplink && FromBE(p[4..]) == downlink
  {
    var p := NewAggregateMaximumBitRate(uplink, downlink).payload;
    assert p[..4] == UintBE(uplink, 4) && p[4..] == UintBE(downlink, 4);
    FromUintBEFits(uplink, 4);
    FromUintBEFits(downlink, 4);
  }

  /** Indication flags given as ready-made octets, carried verbatim. */
  function NewIndicationFromOctets(octets: seq<byte>): IE {
    LeafIE(IndicationType, octets)
  }

  function NewEPSBearerID(ebi: byte): IE {
    LeafIE(EPSBearerIDType, [ebi])
  }

  /** Bearer QoS value: an octet with the pre-emption capability in bit 7,
      the priority level in bits 6 to 3 and the pre-emption vulnerability in
      bit 1; the QCI; then maximum and guaranteed bit rates for uplink and
      downlink, five octets each. Arguments wider than their field are
      masked. */
  function NewBearerQoS(pci: byte, pl: byte, pvi: byte, qci: byte,
                        mbrUL: nat, mbrDL: nat, gbrUL: nat, gbrDL: nat): IE
  {
    var arp := ArpOctet(pci, pl, pvi);
    LeafIE(BearerQoSType,
      [arp, qci] + UintBE(mbrUL, 5) + UintBE(mbrDL, 5) + UintBE(gbrUL, 5) + UintBE(gbrDL, 5))
  }

  /** The allocation/retention priority octet of a Bearer QoS value. */
  function ArpOctet(pci: byte, pl: byte, pvi: byte): (r: byte)
    ensures (r / 64) % 2 == pci % 2 && (r / 4) % 16 == pl % 16 && r % 2 == pvi % 2
    ensures r < 128
  {
    var a := pci % 2;
    var b := pl % 16;
    var c := pvi % 2;
    assert (a * 64 + b * 4 + c) / 4 == a * 16 + b;
    assert (a * 16 + b) % 16 == b;
    assert (a * 64 + b * 4 + c) / 64 == a;
    a * 64 + b * 4 + c
  }

  /** The Bearer QoS fields read back from the value octets: each rate is
      the argument modulo 2^40, occupying exactly five octets. */
  lemma BearerQoSFields(pci: byte, pl: byte, pvi: byte, qci: byte,
                        mbrUL: nat, mbrDL: nat, gbrUL: nat, gbrDL: nat)
    ensures var p := NewBearerQoS(pci, pl, pvi, qci, mbrUL, mbrDL, gbrUL, gbrDL).payload;
      && |p| == 22
      && (p[0] / 64) % 2 == pci % 2 && (p[0] / 4) % 16 == pl % 16 && p[0] % 2 == pvi % 2
      && p[1] == qci
      && FromBE(p[2..7]) == mbrUL % Pow256(5)
      && FromBE(p[7..12]) == mbrDL % Pow256(5)
      && FromBE(p[12..17]) == gbrUL % Pow256(5)
      && FromBE(p[17..22]) == gbrDL % Pow256(5)
  {
    var p := NewBearerQoS(pci, pl, pvi, qci, mbrUL, mbrDL, gbrUL, gbrDL).payload;
    assert p[0] == ArpOctet(pci, pl, pvi);
    assert p[2..7] == UintBE(mbrUL, 5);
    assert p[7..12] == UintBE(mbrDL, 5);
    assert p[12..17] == UintBE(gbrUL, 5);
    assert p[17..22] == UintBE(gbrDL, 5);
    FromUintBE(mbrUL, 5);
    FromUintBE(mbrDL, 5);
    FromUintBE(gbrUL, 5);
    FromUintBE(gbrDL, 5);
  }

  /** A Bearer Context groups its children in the order given. */
  function NewBearerContext(children: seq<IE>): IE {
    Grouped(BearerContextType, 0, 0, children)
  }

  /** Serving Network value: the three-octet PLMN identity. */
  function NewServingNetwork(mcc: string, mnc: string): (r: Option<IE>)
    ensures r.Some? <==> Bcd.EncodePLMN(mcc, mnc).Some?
  {
    var plmn :- Bcd.EncodePLMN(mcc, mnc);
    Some(LeafIE(ServingNetworkType, plmn))
  }

  /** PAA value for an IPv4 PDN: the PDN type octet, then the address. */
  function NewPDNAddressAllocation(v4: IPv4): IE {
    LeafIE(PDNAddressAllocationType, [PDNTypeIPv4] + v4)
  }

  function NewAPNRestriction(restriction: byte): IE {
    LeafIE(APNRestrictionType, [restriction])
  }

  function NewRATType(ratType: byte): IE {
    LeafIE(RATTypeType, [ratType])
  }

  function NewSelectionMode(mode: byte): IE {
    LeafIE(SelectionModeType, [mode])
  }

  /** Tracking area identity: PLMN and a 16-bit tracking area code. */
  datatype TAI = TAI(mcc: string, mnc: string, tac: uint16)

  /** E-UTRAN cell global identity: PLMN and a cell identity. */
  datatype ECGI = ECGI(mcc: string, mnc: string, eci: uint32)

  function EncodeTAI(t: TAI): (r: Option<seq<byte>>)
    ensures r.Some? <==> Bcd.EncodePLMN(t.mcc, t.mnc).Some?
    ensures r.Some? ==> |r.value| == 5
    ensures r.Some? ==> r.value[..3] == Bcd.EncodePLMN(t.mcc, t.mnc).value && FromBE(r.value[3..]) == t.tac
  {
    FromUintBEFits(t.tac, 2);
    var plmn :- Bcd.EncodePLMN(t.mcc, t.mnc);
    Some(plmn + UintBE(t.tac, 2))
  }

  function EncodeECGI(e: ECGI): (r: Option<seq<byte>>)
    ensures r.Some? <==> Bcd.EncodePLMN(e.mcc, e.mnc).Some?
    ensures r.Some? ==> |r.value| == 7
    ensures r.Some? ==> r.value[..3] == Bcd.EncodePLMN(e.mcc, e.mnc).value && FromBE(r.value[3..]) == e.eci
  {
    FromUintBEFits(e.eci, 4);
    var plmn :- Bcd.EncodePLMN(e.mcc, e.mnc);
    Some(plmn + UintBE(e.eci, 4))
  }

  /** ULI flag bits of the two location kinds this model carries. */
  const TAIFlag: byte := 0x08
  const ECGIFlag: byte := 0x10

  /** User Location Information value: a flags octet naming the identities
      present, then each present identity in flag-bit order. */
  function NewUserLocationInformation(tai: Option<TAI>, ecgi: Option<ECGI>): (r: Option<IE>)
    ensures r.Some? <==> (tai.Some? ==> EncodeTAI(tai.value).Some?) && (ecgi.Some? ==> EncodeECGI(ecgi.value).Some?)
    ensures r.Some? ==> r.value.Leaf? && |r.value.payload| == 1 + (if tai.Some? then 5 else 0) + (if ecgi.Some? then 7 else 0)
    ensures r.Some? ==> r.value.tag == UserLocationInformationType && r.value.spare == 0 && r.value.instance == 0
    ensures r.Some? ==> r.value.payload[0] == (if tai.Some? then TAIFlag else 0) + (if ecgi.Some? then ECGIFlag else 0)
    ensures r.Some? && tai.Some? ==> r.value.payload[1..6] == EncodeTAI(tai.value).value
    ensures r.Some? && ecgi.Some? ==> r.value.payload[|r.value.payload| - 7..] == EncodeECGI(ecgi.value).value
  {
    var t :- if tai.Some? then EncodeTAI(tai.value) else Some([]);
    var e :- if ecgi.Some? then EncodeECGI(ecgi.value) else Some([]);
    var flags := (if tai.Some? then TAIFlag else 0) + (if ecgi.Some? then ECGIFlag else 0);
    Some(LeafIE(UserLocationInformationType, [flags] + t + e))
  }

  /** The TAI and ECGI inside a User Location Information IE carry the same
      PLMN octets a Serving Network IE built from the same MCC and MNC
      carries. */
  lemma ULISharesPLMN(mcc: string, mnc: string, tac: uint16, eci: uint32)
    requires NewServingNetwork(mcc, mnc).Some?
    ensures var uli := NewUserLocationInformation(Some(TAI(mcc, mnc, tac)), Some(ECGI(mcc, mnc, eci)));
      && uli.Some?
      && uli.value.payload[0] == TAIFlag + ECGIFlag
      && uli.value.payload[1..4] == NewServingNetwork(mcc, mnc).value.payload
      && uli.value.payload[6..9] == NewServingNetwork(mcc, mnc).value.payload
  {
  }
}

=== FILE: gtpv2_message.dfy ===
/** GTPv2-C messages (clause 5 of 3GPP TS 29.274): a header whose length
    field counts every octet after the first four, followed by the IEs. */
module V2Message {
  import opened Bytes
  import opened Wrappers
  import opened V2IE

  /** The version number every GTPv2-C header carries. */
  const Version2: nat := 2

  /** The header as the message holds it. `flags` keeps the whole first
      octet (version, piggybacking flag, TEID flag, spare bits), so spare
      bits round-trip. `sequence` is stored wider than the three octets that
      carry it, as the Go field is. */
  datatype Header = Header(flags: byte, msgType: byte, length: uint16, teid: uint32, sequence: uint32, spare: byte)

  datatype Message = Message(header: Header, ies: seq<IE>)

  /** The first header octet: version in the top three bits, then the
      piggybacking flag, then the TEID flag; the low three bits are spare. */
  function HeaderFlags(version: nat, piggyback: nat, teidFlag: nat): (f: byte)
    ensures f / 32 == version % 8
    ensures (f / 16) % 2 == piggyback % 2
    ensures (f / 8) % 2 == teidFlag % 2
    ensures f % 8 == 0
  {
    (version % 8) * 32 + (piggyback % 2) * 16 + (teidFlag % 2) * 8
  }

  function Version(h: Header): nat {
    h.flags / 32
  }

  predicate HasTEID(h: Header) {
    (h.flags / 8) % 2 == 1
  }

  /** Octets before the first IE: twelve when the TEID is present, eight
      otherwise. */
  function PrefixLen(h: Header): nat {
    if HasTEID(h) then 12 else 8
  }

  /** The header octets. The TEID is written only when the flag says it is
      present; the sequence number takes three octets. */
  function HeaderOctets(h: Header): (r: seq<byte>)
    ensures |r| == PrefixLen(h)
  {
    [h.flags, h.msgType] + UintBE(h.length, 2)
      + (if HasTEID(h) then UintBE(h.teid, 4) else [])
      + UintBE(h.sequence, 3) + [h.spare]
  }

  /** The header octets followed by the body. */
  function EncodeHeader(h: Header, body: seq<byte>): seq<byte>
  {
    HeaderOctets(h) + body
  }

  /** The length that makes the header consistent with a body: every octet
      after the first four, truncated to 16 bits as a Go uint16 would be. */
  function SetLength(h: Header, body: seq<byte>): (h': Header)
    ensures h' == h.(length := h'.length)
    ensures PrefixLen(h) + |body| - 4 < 0x1_0000 ==> h'.length == PrefixLen(h) + |body| - 4
  {
    h.(length := (PrefixLen(h) + |body| - 4) % 0x1_0000)
  }

  /** Serialises a message: the IEs in list order, after a header whose
      length is recomputed from them. */
  function Marshal(m: Message): (r: seq<byte>)
    ensures |r| == PrefixLen(m.header) + SizeAll(m.ies)
    ensures r[PrefixLen(m.header)..] == EncodeAll(m.ies)
  {
    EncodeAllSize(m.ies);
    var body := EncodeAll(m.ies);
    EncodeHeader(SetLength(m.header, body), body)
  }

  /** Splits a message into its header and the body its length field
      delimits. Octets past the declared end are not part of the message. */
  function ParseHeader(b: seq<byte>): (r: Result<(Header, seq<byte>)>)
    ensures r.Success? ==> 4 + r.value.0.length <= |b|
    ensures r.Success? ==> |r.value.1| == 4 + r.value.0.length - PrefixLen(r.value.0)
    ensures r.Success? ==> r.value.1 == b[PrefixLen(r.value.0)..4 + r.value.0.length]
  {
    if |b| < 8 then Failure(TruncatedHeader)
    else if b[0] / 32 != Version2 then Failure(UnsupportedVersion)
    else
      var teidFlag := (b[0] / 8) % 2 == 1;
      var prefix := if teidFlag then 12 else 8;
      if |b| < prefix then Failure(TruncatedHeader)
      else
        var length := FromBE(b[2..4]);
        if |b| < 4 + length || 4 + length < prefix then Failure(LengthMismatch)
        else
          var teid := if teidFlag then FromBE(b[4..8]) else 0;
          var off := prefix - 4;
          var h := Header(b[0], b[1], length, teid, FromBE(b[off..off + 3]), b[off + 3]);
          Success((h, b[prefix..4 + length]))
  }

  /** Parses a whole message: the header, then its body as IEs. */
  function Parse(b: seq<byte>): (r: Result<Message>)
    ensures r.Success? <==> ParseHeader(b).Success? && ParseIEs(ParseHeader(b).value.1).Success?
    ensures r.Success? ==> r.value.header == ParseHeader(b).value.0
    ensures r.Success? ==> AllWellFormed(r.value.ies) && EncodeAll(r.value.ies) == ParseHeader(b).value.1
  {
    var hb :- ParseHeader(b);
    var ies :- ParseIEs(hb.1);
    EncodeParseAll(hb.1);
    Success(Message(hb.0, ies))
  }

  /** The length field of a serialised message counts every octet after
      the first four, whenever that count fits in 16 bits. */
  lemma MarshalLengthField(m: Message)
    requires PrefixLen(m.header) + SizeAll(m.ies) - 4 < 0x1_0000
    ensures FromBE(Marshal(m)[2..4]) == |Marshal(m)| - 4
  {
    var body := EncodeAll(m.ies);
    var h := SetLength(m.header, body);
    EncodeAllSize(m.ies);
    assert Marshal(m)[2..4] == UintBE(h.length, 2);
    FromUintBEFits(h.length, 2);
  }

  /** A header the encoder represents faithfully: version 2, a sequence
      number that fits three octets, and no TEID stored when the flag says
      none is sent. */
  predicate CanonicalHeader(h: Header) {
    && Version(h) == Version2
    && h.sequence < 0x100_0000
    && (!HasTEID(h) ==> h.teid == 0)
  }

  /** A message the encoder represents faithfully. */
  predicate Encodable(m: Message) {
    && CanonicalHeader(m.header)
    && AllWellFormed(m.ies)
    && PrefixLen(m.header) + SizeAll(m.ies) - 4 < 0x1_0000
  }

  /** A canonical header whose length field counts the body reads back,
      with the body, from its octets followed by the body. */
  lemma ParseHeaderOctets(h: Header, body: seq<byte>)
    requires CanonicalHeader(h)
    requires h.length == PrefixLen(h) + |body| - 4
    ensures ParseHeader(HeaderOctets(h) + body) == Success((h, body))
  {
    var b := HeaderOctets(h) + body;
    var off := PrefixLen(h) - 4;
    assert b[2..4] == UintBE(h.length, 2);
    FromUintBEFits(h.length, 2);
    if HasTEID(h) {
      assert b[4..8] == UintBE(h.teid, 4);
      FromUintBEFits(h.teid, 4);
    }
    assert b[off..off + 3] == UintBE(h.sequence, 3);
    FromUintBEFits(h.sequence, 3);
    assert b[off + 3] == h.spare;
    assert b[PrefixLen(h)..4 + h.length] == body;
  }

  /** Parsing a serialised message gives back its IEs in order, and its
      header with the length field made consistent. */
  lemma ParseMarshal(m: Message)
    requires Encodable(m)
    ensures Parse(Marshal(m)) == Success(Message(SetLength(m.header, EncodeAll(m.ies)), m.ies))
  {
    var body := EncodeAll(m.ies);
    EncodeAllSize(m.ies);
    ParseHeaderOctets(SetLength(m.header, body), body);
    ParseEncodeAll(m.ies);
  }

  /** The prefix octets of a parsed header re-serialise to exactly the
      octets they were read from. */
  lemma HeaderOctetsParsed(b: seq<byte>)
    requires ParseHeader(b).Success?
    ensures var h := ParseHeader(b).value.0;
      PrefixLen(h) <= |b| && HeaderOctets(h) == b[..PrefixLen(h)]
  {
    var h := ParseHeader(b).value.0;
    UintBEFrom(b[2..4]);
    var off := PrefixLen(h) - 4;
    UintBEFrom(b[off..off + 3]);
    if HasTEID(h) {
      UintBEFrom(b[4..8]);
      assert b[..12] == [b[0], b[1]] + b[2..4] + b[4..8] + b[8..11] + [b[11]];
    } else {
      assert b[..8] == [b[0], b[1]] + b[2..4] + b[4..7] + [b[7]];
    }
  }

  /** A parsed message that spans all of its input re-serialises to exactly
      that input. */
  lemma MarshalParse(b: seq<byte>)
    requires Parse(b).Success?
    requires 4 + Parse(b).value.header.length == |b|
    ensures Marshal(Parse(b).value) == b
  {
    var (h, body) := ParseHeader(b).value;
    var m := Parse(b).value;
    assert m.header == h && EncodeAll(m.ies) == body;
    assert SetLength(h, body) == h;
    assert Marshal(m) == HeaderOctets(h) + body;
    HeaderOctetsParsed(b);
    assert body == b[PrefixLen(h)..];
    assert b == b[..PrefixLen(h)] + b[PrefixLen(h)..];
  }

  /** A serialised message cut short anywhere before its end does not
      parse: the parser reports a structural error instead of a partial
      message. */
  lemma TruncatedMessageFails(m: Message, k: nat)
    requires Encodable(m)
    requires k < |Marshal(m)|
    ensures Parse(Marshal(m)[..k]).Failure?
  {
    var b := Marshal(m);
    var t := b[..k];
    if k >= PrefixLen(m.header) {
      MarshalLengthField(m);
      assert t[2..4] == b[2..4];
      assert t[0] == b[0];
    }
  }
}

=== FILE: wrappers.dfy ===
/** Failure-compatible wrappers shared by every codec module, and the error
    kinds the codec reports. */
module Wrappers {

  /** A value that may be absent: a Go nil pointer, or a constructor that
      gave up on a malformed argument. */
  datatype Option<+T> = None | Some(value: T) {
    predicate IsFailure() { None? }

    function PropagateFailure<U>(): Option<U>
      requires None?
    {
      None
    }

    function Extract(): T
      requires Some?
    {
      value
    }
  }

  /** The outcome of a codec call: a value, or the error that stopped it. */
  datatype Result<+T> = Success(value: T) | Failure(error: Error) {
    predicate IsFailure() { Failure? }

    function PropagateFailure<U>(): Result<U>
      requires Failure?
    {
      Failure(error)
    }

    function Extract(): T
      requires Success?
    {
      value
    }
  }

  /** Error kinds raised while encoding or decoding. `IEError` stands for an
      error raised by an information-element codec this model treats as
      opaque; the number distinguishes such errors from each other. */
  datatype Error =
    | TruncatedHeader
    | TruncatedIE
    | UnsupportedVersion
    | MalformedLabel
    | LengthMismatch
    | TooShortToMarshal
    | IEError(code: nat)
}
